=== FILE: README.md ===
# Task-App-Mern: account credentials and task ownership, in Dafny

This project models the server core of a task-management API:

- **Accounts and credentials.** A user signs up and receives an emailed, 15-minute link (a
  signed token plus a stored reset record). Redeeming it sets the password. Login sets a
  one-hour session cookie. A forgotten password is reset through the same kind of link.
- **The authentication middleware** in front of the protected routes.
- **Tasks.** Each task belongs to the user who created it. It is created, listed, read,
  updated, deleted and given an image through routes meant to be scoped by task id and
  owner. As shipped, the list is not scoped and update and delete always answer 500 (see
  "## Findings"); the model has both the shipped and the corrected handlers.
- **Image handling.** The image store's public-id extraction, and the rule deciding when a
  profile picture is destroyed.

Each handler is a Dafny method over a `Database` object. The object holds:

- the users (a map from id to user);
- the password-reset records (a sequence in natural order, because `findOne` and
  `deleteOne` act on the first match);
- the tasks (a map from id to task);
- the outbox of sent mail;
- the next fresh id.

A handler runs the source's guards in order and ends in a `Response` (status and body). Its
postcondition states the response and the whole new state for every branch. Every handler
keeps `Database.Valid`: ids are fresh, reset-record ids are distinct, and no two users share
an email. Every handler also keeps the provenance invariant `Store.AllIssued`: every reset
record belongs to an existing user and carries a token signed for that user that expires no
later than the record.

The schemas, the token arithmetic, the Mongo filters and the string functions are pure
functions with their own contracts and lemmas. `Scenarios` runs concrete request sequences
on a fresh database and pins the outcomes, including a full signup → set-password → login →
task round trip.

Time is an integer clock `now` in milliseconds, as given by `Date.now()`. JWT `iat`/`exp`
are whole seconds: `exp = floor(now / 1000) + ttl`. A token verifies while
`floor(now / 1000) < exp`, as section 4.1.4 of RFC 7519 requires. Signatures are
abstracted: `Signed` tokens are the server's, anything else is `Forged`.

Where the handlers depart from what they evidently intend, the model follows the code:

- A reset record is "expired" for set-password only when `expiresAt < now`, so `expiresAt == now` is still live.
- Set-password deletes the user's first record, not the redeemed one (reset-password deletes exactly the redeemed record by `_id`).
- The task list is not scoped by owner.
- In the corrected handlers (`UpdateTask`, `DeleteTask`), an update applies the whole body, owner included, without validation.
- In the corrected handlers (`UpdateTask`, `DeleteTask`), deleting a task does not release its image.
- The old profile picture is destroyed before the new upload is confirmed.

The handlers also distinguish, on purpose, an unknown email from a wrong password at login,
and answer 400 (not 404) for a missing or foreign task.

## Model

| member | source | states |
|---|---|---|
| Strings.LastSegment | config/cloudinary.js:16 | `split('/').pop()`: the result holds no separator, is a suffix of the input, and is the whole input or is preceded by the separator |
| Strings.FirstSegment | config/cloudinary.js:16 | `split('.')[0]`: the result holds no separator, is a prefix of the input, and is the whole input or is followed by the separator |
| Strings.LastSegmentAfter | config/cloudinary.js:16 | whatever precedes the last separator, `pop()` returns exactly the text after it |
| Strings.FirstSegmentBefore | config/cloudinary.js:16 | whatever follows the first separator, `[0]` returns exactly the text before it |
| Strings.MissingCharRulesOut | routes/authRoutes.js:222 | `includes(part)` is false when some character of `part` is absent from the text |
| Jwt.VerifySign | middleware/authMiddleware.js:14 | a signed token verifies to its own id exactly while the current second is below `iat + ttl`, and fails otherwise |
| Jwt.ExpiryIsFinal | middleware/authMiddleware.js:14-22 | once a token fails verification it fails at every later instant |
| Jwt.LiveBeforeDeadline | routes/authRoutes.js:42-48 | a token whose `exp` (in ms) is no later than a deadline verifies only strictly before the deadline |
| Jwt.SignedLifetimeWithin | routes/authRoutes.js:121-127 | a token signed at `t` with lifetime `ttl` seconds no longer verifies at `t + ttl*1000` ms or later |
| ResetTokens.FindFirst | routes/authRoutes.js:84 | `findOne`: the index returned matches and no earlier record does; none is returned only when no record matches |
| ResetTokens.DeleteOne | routes/authRoutes.js:99 | `deleteOne`: without a match the collection is unchanged; otherwise exactly the first match is removed and the order kept |
| ResetTokens.DeleteAll | routes/authRoutes.js:91-99 | removing every match (the single-use variant): a record survives iff it was there and does not match; distinct ids are kept |
| ResetTokens.RemovalKeeps | routes/authRoutes.js:288 | removing one position leaves only records that were there and keeps ids distinct |
| ResetTokens.DeleteOneKeeps | routes/authRoutes.js:99 | `deleteOne` never introduces a record and keeps ids distinct |
| ResetTokens.DefaultExpiryAtLimit | models/PasswordResetToken.js:6 | a record saved without `expiresAt` is at its limit at once: not expired for set-password, already refused by reset-password, expired a millisecond later |
| ResetTokens.ExpiryBoundaries | routes/authRoutes.js:90 | set-password's `<` and reset-password's `$gt` agree before and after `expiresAt` and differ only at that instant |
| ResetTokens.DeleteByIdRemovesExactly | routes/authRoutes.js:288 | with distinct ids, deleting by the found record's `_id` removes exactly that record and nothing else |
| ResetTokens.DeleteByUserSparesLaterMatch | routes/authRoutes.js:84-99 | when the redeemed record is not the user's first, deleting one record by `userId` leaves the redeemed one findable |
| ResetTokens.DeleteAllLeavesNoMatch | routes/authRoutes.js:99 | after removing every record with the user and token, none is left to redeem |
| TaskModel.Validate | models/Task.js:4-11 | a draft is saved iff every required path is present and non-empty and the status is in the enum; the saved record is valid |
| TaskModel.OwnedBy | routes/authRoutes.js:157 | `Task.find({ user })`: exactly the tasks whose `user` is the owner, with their stored contents |
| TaskModel.StatusEnum | models/Task.js:10 | with the other paths present, a draft is accepted exactly when its status is `pending`, `inprogress` or `done` |
| TaskModel.SentinelIsSchemaDefault | routes/taskRoutes.js:11 | omitting the image and passing `default-task.jpg` store the same record |
| TaskModel.ValidateRoundTrip | models/Task.js:4-11 | a valid record is reproduced by validating its own fields at its creation instant |
| TaskModel.RequiredPaths | models/Task.js:5-10 | dropping any required path, or emptying the title, makes the save fail |
| TaskModel.PatchBypassesSchema | routes/taskRoutes.js:50 | an update is not validated: it can store a status outside the enum and reassign the owner |
| TaskModel.EmptyPatchTouchesOnlyUpdatedAt | models/Task.js:11 | an update without a recognised path only stamps `updatedAt` |
| Cloudinary.Upload | config/cloudinary.js:26-33 | an upload is accepted iff its format is jpg, png or jpeg, and `deleteImage` on its URL destroys `task-images/<name>` |
| Cloudinary.DestroyTargetOfDelivery | config/cloudinary.js:16-17 | the public-id extraction inverts the delivery URL of an upload in the folder |
| Cloudinary.PublicIdExample | config/cloudinary.js:16-17 | `a/b/x.y.jpg` names public id `x` and destroy target `task-images/x` |
| Cloudinary.ImageStore.DeleteImage | config/cloudinary.js:13-22 | exactly one destroy call, for `task-images/` plus the URL's public id, whose failure is swallowed |
| Store.IssueRecord | routes/authRoutes.js:42-50 | the issued record carries a 15-minute token for the user that verifies at issue, and expires 15 minutes later, never before the token |
| Store.VerifiedRecordIsLive | routes/authRoutes.js:90-93 | for a record the handlers issued, whenever its token verifies the record is neither expired nor refused by `$gt` |
| AuthMiddleware.Decide | middleware/authMiddleware.js:3-29 | 500 iff no cookie jar; no token iff the cookie is absent or empty; rejected iff present and not verifying; authenticated, with the token's id, iff it verifies |
| AuthMiddleware.Authenticate | middleware/authMiddleware.js:3-29 | per outcome: the 401 or 500 answer, the cookie cleared only for a bad token, and `req.user` set with `next` called exactly once only for a valid one |
| AuthMiddleware.SessionCookieLifetime | routes/authRoutes.js:121-127 | the login cookie authenticates its user exactly while `exp` is ahead, and never after the cookie's `maxAge` |
| AuthMiddleware.LinkTokenOpensSession | routes/authRoutes.js:42 | a live set-password or reset link token is also accepted as a session cookie for its user |
| AuthMiddleware.ForgedNeverAuthenticates | middleware/authMiddleware.js:13-22 | a token the server did not sign never authenticates |
| AuthRoutes.SignupErrors | routes/authRoutes.js:14-24 | no error iff names and username are non-empty and the email is valid; the email message appears iff the email is invalid |
| AuthRoutes.Signup | routes/authRoutes.js:13-58 | 400 with the errors, or 409 (email message only when the email is taken) with no change, or one new passwordless user, one record expiring `now + 15 min`, one setup mail, 201 |
| AuthRoutes.ScreenSetPassword | routes/authRoutes.js:68-83 | the request passes iff the body, token and both passwords are present, the passwords agree and the token verifies; else the first failing guard's message |
| AuthRoutes.SetPassword | routes/authRoutes.js:66-106 | each 400 leaves everything unchanged, except the expired branch, which deletes the user's first record; success sets the password and deletes the user's first record |
| AuthRoutes.SetPasswordSingleUse | routes/authRoutes.js:84-101 | as set-password, but every record with the redeemed token is deleted, so after a 200 the token cannot be redeemed again |
| AuthRoutes.Login | routes/authRoutes.js:109-137 | 400 for missing fields, unknown email or wrong password (distinct messages); success answers the user's public fields and sets the one-hour `httpOnly`, `lax` session cookie |
| AuthRoutes.Profile | routes/authRoutes.js:154-158 | the caller's user without the password, and exactly the caller's tasks |
| AuthRoutes.UpdateProfile | routes/authRoutes.js:164-184 | 404 for no user; 400 with no change when a new email belongs to someone; else only truthy fields are overwritten |
| AuthRoutes.UpdatePassword | routes/authRoutes.js:190-211 | 404; 400 for a wrong old password; 500 for a missing new one; 400 below 8 characters; else the new password is stored and matches |
| AuthRoutes.UpdateProfileImage | routes/authRoutes.js:216-231 | a custom picture is destroyed first, then a missing file answers 500 with the `TypeError` text as `error` and the profile unchanged; else the profile becomes the new path |
| AuthRoutes.UpdateProfileImageChecked | routes/authRoutes.js:216-231 | a missing file answers 500 and destroys nothing; the old custom picture is destroyed only after the new path is stored |
| AuthRoutes.ForgotPassword | routes/authRoutes.js:236-262 | 404 with no change for an unknown email; else one record expiring `now + 15 min` and one reset mail for that user |
| AuthRoutes.ResetPassword | routes/authRoutes.js:269-295 | 200 iff the token verifies, its user exists and a live record holds it; then the password is set and exactly that record is deleted; otherwise 400 with no change |
| TaskRoutes.CreateTask | routes/taskRoutes.js:8-28 | a request passing the schema is stored under a fresh id as exactly the task with the caller as owner, the request's title, description, date and status, the upload or `default-task.jpg` as image, and both timestamps at `now` (201); any other request answers 500 with no change |
| TaskRoutes.ListTasks | routes/taskRoutes.js:29-36 | as written: every stored task, whoever owns it |
| TaskRoutes.ListOwnTasks | routes/taskRoutes.js:29-36 | exactly the caller's tasks, with their contents |
| TaskRoutes.GetTask | routes/taskRoutes.js:38-47 | a task is returned only to its owner; a missing and a foreign task both answer 400 "task not found"; an uncastable id answers 200 "server issues" |
| TaskRoutes.UpdateTaskAsWritten | routes/taskRoutes.js:48-59 | as written: 500 for every request |
| TaskRoutes.DeleteTaskAsWritten | routes/taskRoutes.js:60-71 | as written: 500 for every request |
| TaskRoutes.UpdateTask | routes/taskRoutes.js:48-59 | 500 for an uncastable id, 400 with no change unless the caller owns the task, else the patch is applied to that task only |
| TaskRoutes.DeleteTask | routes/taskRoutes.js:60-71 | 500 for an uncastable id, 400 with no change unless the caller owns the task, else exactly that task is removed |
| TaskRoutes.UpdateTaskImage | routes/taskRoutes.js:73-88 | scoped lookup; 500 without a file or when the stored task fails validation; else only `image` and `updatedAt` change |
| TaskRoutes.Serve | routes/taskRoutes.js:8-88 | the router with the corrected list, update and delete: without a valid cookie nothing changes and the answer is 401 or 500; with one, other users' tasks stay unchanged, new tasks belong to the caller, and only the caller's tasks are shown |
| TaskRoutes.ServeAsWritten | routes/taskRoutes.js:8-88 | the router as shipped: without a valid cookie nothing changes and the answer is 401 or 500; with one, no task is ever removed, other users' tasks stay unchanged, new tasks belong to the caller, the list shows every stored task, and update and delete answer 500 with no change |
| Scenarios.AccountAndTaskLifecycle | routes/authRoutes.js:13-137 | with the corrected delete: signup, set-password, login, create, get, delete, get answer 201, 200, 200, 201, 200, 200, 400 |
| Scenarios.AccountAndTaskLifecycleAsWritten | routes/taskRoutes.js:60-71 | the same lifecycle with the shipped delete answers 201, 200, 200, 201, 200, 500, 200, and the task stays stored |
| Scenarios.ListLeaksOtherUsersTasks | routes/taskRoutes.js:31 | another user's task appears in the shipped list but not in the scoped list, and a direct read answers 400 |
| Scenarios.SetPasswordReplay | routes/authRoutes.js:84-101 | with a setup and a reset link outstanding, the reset link sets the password twice (200, 200) |
| Scenarios.SetPasswordReplayRefused | routes/authRoutes.js:84-101 | with the single-use handler the replay answers 400 and the first password stays |
| Scenarios.TaslTypo | routes/taskRoutes.js:50-62 | on the owner's own task the shipped update and delete answer 500, 500; the intended ones answer 200, 200 |
| Scenarios.DuplicateUsernameRefused | routes/authRoutes.js:29-35 | signup with a taken username and a free email answers 409 with the username message |
| Scenarios.UsernameTakenThroughProfile | routes/authRoutes.js:177-180 | a profile update takes a username that is already in use, and two users then share it |
| Scenarios.ProfileImageWithoutFile | routes/authRoutes.js:222-225 | without a file the stored picture is destroyed, the answer is 500 carrying the `TypeError` text, and the profile still names the destroyed picture |
| Scenarios.ProfileImageWithoutFileChecked | routes/authRoutes.js:216-231 | the checked handler answers 500 (with the same `error` text) and destroys nothing |

## Left out

- app.js (CORS, parsers, mounting, `listen`) is framework wiring with no state to model.
- Logout (routes/authRoutes.js:144-152) only clears the client cookie; no server state changes, so there is no transition to model.
- config/sendEmail.js is modelled only as an outbox entry: the SMTP transport is not modelled. Mail failures are logged inside `sendMail`, which never rejects, so Signup and ForgotPassword always go on to answer 201 or 200.
- models/User.js is not part of this model: password hashing and `matchPassword` are idealised as exact comparison with the stored value, and an unset password matches nothing.
- UpdateProfile: models/User.js is assumed to declare no unique index on `username`; with one, the update in `Scenarios.UsernameTakenThroughProfile` would answer 500 instead of letting two users share the username.
- Serve: composes the corrected list, update and delete, so its list and deletion promises are not those of the shipped router; `TaskRoutes.ServeAsWritten` states what the shipped router does.
- AccountAndTaskLifecycle: runs the corrected delete; `Scenarios.AccountAndTaskLifecycleAsWritten` pins the shipped outcome (500, then 200).
- UpdatePassword: a missing `oldPassword` is treated as a non-matching candidate, because what `matchPassword` does with `undefined` is not visible.
- UpdateProfileImage: the `error` field carries the `TypeError` text of current Node versions (`MissingFileFault`); older versions word it differently.
- Signup: a new user's `profile` is absent (`None`); the default picture URL that models/User.js evidently supplies (the handler tests for `default.jpg`) is modelled as absent, so Profile and UpdateProfile answer no picture where the source answers that default. `HoldsCustomImage` treats both alike.
- SignupErrors: a 400 answer keeps only each failed validator's `msg`; the `type`, `value`, `path` and `location` fields that `errors.array()` also sends are dropped.
- UpdatePassword: the 8-character rule counts Dafny characters, not JavaScript UTF-16 code units.
- IsEmail approximates express-validator's `isEmail()`: a non-empty local part, one `@`, a domain with an inner dot, no spaces.
- JWT signatures and the secret are abstracted: a token is either one the server signed (`Signed`) or not (`Forged`).
- Persistence failures (a `save` or query that throws for reasons other than the ones above) are not modelled. Signup, Login, Profile, UpdateProfile and ForgotPassword do not show their generic 500 branches.
- Request fields of the wrong JSON type (objects used for NoSQL operator injection, numbers for strings) are not modelled; fields are strings or absent.
- ForgotPassword: the email is always present; the query `findOne({ email: undefined })` is not modelled.
- ResetPassword: the new password is always present; what `save()` does with an undefined password depends on models/User.js.
- Multer and Cloudinary upload plumbing is not modelled: a handler receives the uploaded path or nothing, and rejected formats and the 500×500 transformation stay outside the handlers (`Cloudinary.Upload` states the format rule).
- The protected account routes take the caller id directly; only the task router is composed with the middleware (`TaskRoutes.Serve`).
- Concurrency between requests, console logging, and real `Date` values (an integer millisecond clock is used) are not modelled.
- Mongoose casting of update values and of the `date` path is not modelled: a date is an integer or absent.

## Findings

| source | as written | input that shows it | evidently intended | confidence | as-written member | corrected member |
|---|---|---|---|---|---|---|
| routes/taskRoutes.js:50 | `Tasl.findOneAndUpdate` names an undefined identifier, so every update answers 500 | the owner's own task with body `{ status: "done" }` | the scoped `Task.findOneAndUpdate`, answering 200 "task updated" | high, not executed | TaskRoutes.UpdateTaskAsWritten | TaskRoutes.UpdateTask |
| routes/taskRoutes.js:62 | `Tasl.findOneAndDelete`: every delete answers 500 and nothing is removed | the owner's own task | the scoped `Task.findOneAndDelete`, answering 200 | high, not executed | TaskRoutes.DeleteTaskAsWritten | TaskRoutes.DeleteTask |
| routes/taskRoutes.js:31 | `Task.find(req.params.id)` with an undefined id returns every user's tasks | user 8 lists while user 7 owns a task | `Task.find({ user: req.user.id })` | high, not executed | Scenarios.ListLeaksOtherUsersTasks | TaskRoutes.ListOwnTasks |
| routes/authRoutes.js:99 | `deleteOne({ userId })` deletes the user's first record, not the redeemed one, so the link can be redeemed again | signup link, then a reset link; set-password with the reset link twice | delete the redeemed record so each link is single-use | medium, not executed | Scenarios.SetPasswordReplay | AuthRoutes.SetPasswordSingleUse |
| routes/authRoutes.js:222-225 | the old picture is destroyed before `req.file.path` is read; without a file the handler answers 500 and the profile names a destroyed picture | a user with an uploaded picture sends the request without a file | check the upload first and destroy the old picture only after the new path is stored | high, not executed | Scenarios.ProfileImageWithoutFile | AuthRoutes.UpdateProfileImageChecked |

=== FILE: auth_middleware.dfy ===
/** middleware/authMiddleware.js: the guard in front of every protected route. The decision
    is a case split on the `token` cookie alone; its effects on the request and response
    (setting `req.user`, clearing the cookie, answering, calling `next`) are applied to an
    `Exchange` object that stands for the pair `req`/`res`. */
module AuthMiddleware {
  import opened Wrappers
  import opened Mongo
  import opened Jwt
  import opened Http

  /** `req.cookies`: undefined when no cookie parser ran, otherwise its `token` entry. */
  datatype CookieJar = Unparsed | Jar(token: Option<Token>)

  datatype Decision = NoToken | BadToken | Authenticated(userId: ObjectId) | Fault

  const LoginRequiredMsg: string := "Authentication required. Please log in."
  const BadTokenMsg: string := "Invalid or expired token. Please log in again."
  const AuthErrorMsg: string := "Authentication error"

  /** The middleware's three outcomes, plus the outer `catch` when reading the cookie fails. */
  function Decide(jar: CookieJar, now: int): (d: Decision)
    ensures d.Fault? <==> jar.Unparsed?
    ensures d.NoToken? <==> jar.Jar? && !Present(jar.token)
    ensures d.BadToken? <==> jar.Jar? && Present(jar.token) && Verify(jar.token.value, now).None?
    ensures d.Authenticated? <==> jar.Jar? && Present(jar.token) && Verify(jar.token.value, now).Some?
    ensures d.Authenticated? ==> Verify(jar.token.value, now) == Some(d.userId)
  {
    if jar.Unparsed? then Fault
    else if !Present(jar.token) then NoToken
    else
      match Verify(jar.token.value, now)
      case None => BadToken
      case Some(id) => Authenticated(id)
  }

  /** The request/response pair as far as the middleware touches it. */
  class Exchange {
    const cookies: CookieJar
    var user: Option<ObjectId>        // req.user
    var response: Option<Response>    // what has been sent, if anything
    var cookieCleared: bool           // res.clearCookie('token') was called
    var nextCalls: nat                // how many times next() was called

    constructor (cookies: CookieJar)
      ensures this.cookies == cookies
      ensures user == None && response == None && !cookieCleared && nextCalls == 0
    {
      this.cookies := cookies;
      user, response, cookieCleared, nextCalls := None, None, false, 0;
    }
  }

  /** `authMiddleware(req, res, next)`. */
  method Authenticate(ex: Exchange, now: int)
    modifies ex
    ensures match Decide(ex.cookies, now)
      case Fault =>
        ex.response == Some(Response(500, Message(AuthErrorMsg)))
        && ex.user == old(ex.user) && ex.cookieCleared == old(ex.cookieCleared) && ex.nextCalls == old(ex.nextCalls)
      case NoToken =>
        ex.response == Some(Response(401, Message(LoginRequiredMsg)))
        && ex.user == old(ex.user) && ex.cookieCleared == old(ex.cookieCleared) && ex.nextCalls == old(ex.nextCalls)
      case BadToken =>
        ex.response == Some(Response(401, Message(BadTokenMsg)))
        && ex.user == old(ex.user) && ex.cookieCleared && ex.nextCalls == old(ex.nextCalls)
      case Authenticated(id) =>
        ex.response == old(ex.response)
        && ex.user == Some(id) && ex.cookieCleared == old(ex.cookieCleared) && ex.nextCalls == old(ex.nextCalls) + 1
  {
    if ex.cookies.Unparsed? {
      ex.response := Some(Response(500, Message(AuthErrorMsg)));
      return;
    }
    var token := ex.cookies.token;
    if !Present(token) {
      ex.response := Some(Response(401, Message(LoginRequiredMsg)));
      return;
    }
    var decoded := Verify(token.value, now);
    if decoded.Some? {
      ex.user := decoded;
      ex.nextCalls := ex.nextCalls + 1;
    } else {
      ex.cookieCleared := true;
      ex.response := Some(Response(401, Message(BadTokenMsg)));
    }
  }

  /** The cookie login sets authenticates its user exactly while the token's `exp` is ahead,
      and the token always dies before the cookie's `maxAge` runs out. */
  lemma SessionCookieLifetime(id: ObjectId, loginAt: int, now: int)
    ensures Decide(Jar(Some(SessionCookie(Sign(id, SessionTtl, loginAt)).value)), now) == Authenticated(id)
        <==> NumericDate(now) < NumericDate(loginAt) + SessionTtl
    ensures Decide(Jar(Some(SessionCookie(Sign(id, SessionTtl, loginAt)).value)), now).Authenticated?
        ==> now < loginAt + SessionCookie(Sign(id, SessionTtl, loginAt)).maxAgeMs
  {
    if Verify(Sign(id, SessionTtl, loginAt), now).Some? {
      SignedLifetimeWithin(id, SessionTtl, loginAt, now);
    }
  }

  /** Sessions and emailed links are signed alike, so a set-password or reset token, while
      live, is accepted as a session cookie for its user. */
  lemma LinkTokenOpensSession(id: ObjectId, issuedAt: int, now: int)
    requires NumericDate(now) < NumericDate(issuedAt) + ActivationTtl
    ensures Decide(Jar(Some(Sign(id, ActivationTtl, issuedAt))), now) == Authenticated(id)
  {
  }

  /** No token the server did not sign gets through, whatever the clock. */
  lemma ForgedNeverAuthenticates(raw: string, now: int)
    ensures !Decide(Jar(Some(Forged(raw))), now).Authenticated?
  {
  }
}

=== FILE: auth_routes.dfy ===
/** routes/authRoutes.js: the account handlers. Each is a method over the `Database` that
    runs the handler's guards in order and then changes the collections the way the handler
    does; `caller` is the id the middleware put in `req.user`. */
module AuthRoutes {
  import opened Wrappers
  import opened Mongo
  import opened Strings
  import opened Jwt
  import opened ResetTokens
  import opened TaskModel
  import opened Cloudinary
  import opened Store
  import opened Http

  const FirstNameRequiredMsg: string := "First Name is required"
  const LastNameRequiredMsg: string := "Last Name is required"
  const UsernameRequiredMsg: string := "Username is required"
  const EmailInvalidMsg: string := "Valid email is required"
  const EmailExistsMsg: string := "Email already exists"
  const UsernameTakenMsg: string := "Username is already taken! Please choose another."
  const SignupOkMsg: string := "Signup successful. Please check your email to set your password."
  const SetupSubject: string := "Set Up Your Password"

  const BodyMissingMsg: string := "Request body is missing!"
  const FieldsRequiredMsg: string := "Token, password, and confirm password are required"
  const MismatchMsg: string := "Passwords do not match!"
  const InvalidOrExpiredMsg: string := "Invalid or expired token"
  const ExpiredMsg: string := "Token has expired. Please request a new password reset link."
  const InvalidTokenMsg: string := "Invalid token"
  const PasswordSetMsg: string := "Password set successfully. You can now log in."

  const CredentialsRequiredMsg: string := "Email and password are required"
  const EmailUnknownMsg: string := "Email does not exist"
  const InvalidPasswordMsg: string := "Invalid password"
  const LoginOkMsg: string := "Login successful"

  const UserNotFoundMsg: string := "User not found"
  const EmailInUseMsg: string := "Email is already in use"
  const ProfileUpdatedMsg: string := "User details updated successfully"
  const IncorrectOldPasswordMsg: string := "Incorrect old password"
  const PasswordTooShortMsg: string := "New password must be at least 8 characters long"
  const PasswordUpdatedMsg: string := "Password updated successfully"
  const ServerErrorMsg: string := "Server error"
  /** The `TypeError` message Node gives for `req.file.path` when no file was uploaded; the
      profile-image handler's `catch` sends it back as `error`. */
  const MissingFileFault: string := "Cannot read properties of undefined (reading 'path')"
  const ProfileImageUpdatedMsg: string := "Profile picture updated successfully"

  const ResetSubject: string := "Password Reset Request"
  const ResetLinkSentMsg: string := "Password reset link sent to your email"
  const InvalidOrExpiredResetMsg: string := "Invalid or expired reset token"
  const PasswordResetMsg: string := "Password has been reset successfully"

  /** The policy update-password enforces on a new password. */
  const MinPasswordLength: int := 8

  /** A profile URL containing this text is the default picture and is never destroyed. */
  const DefaultProfileMarker: string := "default.jpg"

  // ---------------------------------------------------------------- signup

  datatype SignupFields = SignupFields(firstName: Option<string>, lastName: Option<string>, username: Option<string>, email: Option<string>)

  /** A simplified `isEmail()`: one `@` after a non-empty local part, a domain with an
      inner dot, no spaces. */
  predicate IsEmail(s: string)
  {
    var local := FirstSegment(s, '@');
    |local| > 0 && |local| < |s| && ' ' !in s
    && var domain := s[|local| + 1..];
    '@' !in domain && |domain| >= 3 && '.' in domain[1..|domain| - 1]
  }

  /** The messages of the validators that fail, in declaration order. */
  function SignupErrors(b: SignupFields): (errors: seq<string>)
    ensures errors == [] <==> Filled(b.firstName) && Filled(b.lastName) && Filled(b.username) && b.email.Some? && IsEmail(b.email.value)
    ensures (EmailInvalidMsg in errors) <==> !(b.email.Some? && IsEmail(b.email.value))
  {
    (if Filled(b.firstName) then [] else [FirstNameRequiredMsg])
    + (if Filled(b.lastName) then [] else [LastNameRequiredMsg])
    + (if Filled(b.username) then [] else [UsernameRequiredMsg])
    + (if b.email.Some? && IsEmail(b.email.value) then [] else [EmailInvalidMsg])
  }

  /** `User.findOne({ $or: [{ email }, { username }] })` finds someone. */
  predicate Clash(users: map<ObjectId, User>, email: string, username: string)
  {
    EmailTaken(users, email) || UsernameTaken(users, username)
  }

  /** POST /signup: a new user without a password, one reset record whose token is emailed. */
  method Signup(db: Database, body: SignupFields, now: int) returns (res: Response)
    requires db.Valid()
    modifies db
    ensures db.Valid()
    ensures AllIssued(old(db.resetTokens), old(db.users)) ==> AllIssued(db.resetTokens, db.users)
    ensures SignupErrors(body) != [] ==> res == Response(400, Errors(SignupErrors(body))) && unchanged(db)
    ensures SignupErrors(body) == [] && Clash(old(db.users), body.email.value, body.username.value) ==>
      && res.status == 409 && unchanged(db)
      && (res.body == Message(EmailExistsMsg) || res.body == Message(UsernameTakenMsg))
      && (res.body == Message(EmailExistsMsg) ==> EmailTaken(old(db.users), body.email.value))
      && (res.body == Message(UsernameTakenMsg) ==>
            exists id :: id in old(db.users) && old(db.users)[id].username == body.username.value
                                             && old(db.users)[id].email != body.email.value)
    ensures SignupErrors(body) == [] && !Clash(old(db.users), body.email.value, body.username.value) ==>
      var uid := old(db.nextId);
      && res == Response(201, Message(SignupOkMsg))
      && db.users == old(db.users)[uid := User(body.firstName.value, body.lastName.value, body.username.value, body.email.value, None, None)]
      && db.resetTokens == old(db.resetTokens) + [IssueRecord(uid + 1, uid, now)]
      && db.outbox == old(db.outbox) + [Mail(body.email.value, SetupSubject, Sign(uid, ActivationTtl, now))]
      && db.tasks == old(db.tasks) && db.nextId == uid + 2
  {
    var errors := SignupErrors(body);
    if errors != [] {
      return Response(400, Errors(errors));
    }
    var firstName, lastName, username, email := body.firstName.value, body.lastName.value, body.username.value, body.email.value;
    if Clash(db.users, email, username) {
      var existing :| existing in db.users && (db.users[existing].email == email || db.users[existing].username == username);
      var message := if db.users[existing].email == email then EmailExistsMsg else UsernameTakenMsg;
      return Response(409, Message(message));
    }
    var uid := db.nextId;
    db.users := db.users[uid := User(firstName, lastName, username, email, None, None)];
    var record := IssueRecord(uid + 1, uid, now);
    db.resetTokens := db.resetTokens + [record];
    db.nextId := uid + 2;
    db.outbox := db.outbox + [Mail(email, SetupSubject, record.token.value)];
    res := Response(201, Message(SignupOkMsg));
  }

  // ---------------------------------------------------------------- set-password

  datatype SetPasswordFields = SetPasswordFields(token: Option<Token>, password: Option<string>, confirmPassword: Option<string>)

  /** The outcome of the guards that look only at the request: the first failing guard's
      message, or the verified user, token and password. */
  datatype Screening = Refused(message: string) | Passed(userId: ObjectId, token: Token, password: string)

  /** set-password's request guards, in the handler's order; `body` is `None` when the body
      is missing or has no keys. */
  function ScreenSetPassword(body: Option<SetPasswordFields>, now: int): (s: Screening)
    ensures s.Passed? <==>
      && body.Some? && Present(body.value.token) && Filled(body.value.password) && Filled(body.value.confirmPassword)
      && body.value.password == body.value.confirmPassword
      && Verify(body.value.token.value, now).Some?
    ensures s.Passed? ==>
      && Verify(body.value.token.value, now) == Some(s.userId)
      && s.token == body.value.token.value && Some(s.password) == body.value.password && s.password != ""
    ensures s.Refused? ==> s.message in {BodyMissingMsg, FieldsRequiredMsg, MismatchMsg, InvalidTokenMsg}
    ensures body.None? ==> s == Refused(BodyMissingMsg)
  {
    if body.None? then Refused(BodyMissingMsg)
    else
      var b := body.value;
      if !Present(b.token) || !Filled(b.password) || !Filled(b.confirmPassword) then Refused(FieldsRequiredMsg)
      else if b.password != b.confirmPassword then Refused(MismatchMsg)
      else
        match Verify(b.token.value, now)
        case None => Refused(InvalidTokenMsg)
        case Some(uid) => Passed(uid, b.token.value, b.password.value)
  }

  /** POST /set-password, as written: the record is found by user and token, but the record
      deleted afterwards is the user's first one, whichever token it holds. */
  method SetPassword(db: Database, body: Option<SetPasswordFields>, now: int) returns (res: Response)
    requires db.Valid()
    modifies db
    ensures db.Valid()
    ensures AllIssued(old(db.resetTokens), old(db.users)) ==> AllIssued(db.resetTokens, db.users)
    ensures db.tasks == old(db.tasks) && db.outbox == old(db.outbox) && db.nextId == old(db.nextId)
    ensures res.status == 200 || res.status == 400
    ensures ScreenSetPassword(body, now).Refused? ==>
      res == Response(400, Message(ScreenSetPassword(body, now).message)) && unchanged(db)
    ensures ScreenSetPassword(body, now).Passed? ==>
      var s := ScreenSetPassword(body, now);
      var found := FindFirst(old(db.resetTokens), UserAndToken(s.userId, s.token));
      && (found.None? ==> res == Response(400, Message(InvalidOrExpiredMsg)) && unchanged(db))
      && (found.Some? && ExpiredAt(old(db.resetTokens)[found.value], now) ==>
            && res == Response(400, Message(ExpiredMsg))
            && db.users == old(db.users)
            && db.resetTokens == DeleteOne(old(db.resetTokens), OfUser(s.userId)))
      && (found.Some? && !ExpiredAt(old(db.resetTokens)[found.value], now) && s.userId !in old(db.users) ==>
            res == Response(400, Message(InvalidTokenMsg)) && unchanged(db))
      && (found.Some? && !ExpiredAt(old(db.resetTokens)[found.value], now) && s.userId in old(db.users) ==>
            && res == Response(200, Message(PasswordSetMsg))
            && db.users == old(db.users)[s.userId := old(db.users)[s.userId].(password := Some(s.password))]
            && db.resetTokens == DeleteOne(old(db.resetTokens), OfUser(s.userId)))
  {
    var screening := ScreenSetPassword(body, now);
    if screening.Refused? {
      return Response(400, Message(screening.message));
    }
    var uid, token, password := screening.userId, screening.token, screening.password;
    var found := FindFirst(db.resetTokens, UserAndToken(uid, token));
    if found.None? {
      return Response(400, Message(InvalidOrExpiredMsg));
    }
    var remaining := DeleteOne(db.resetTokens, OfUser(uid));
    DeleteOneKeeps(db.resetTokens, OfUser(uid));
    if ExpiredAt(db.resetTokens[found.value], now) {
      IssuedAfterRemoval(db.resetTokens, remaining, db.users, db.users);
      db.resetTokens := remaining;
      return Response(400, Message(ExpiredMsg));
    }
    if uid !in db.users {
      // `user.password = ...` on a missing user throws; the catch answers "Invalid token".
      return Response(400, Message(InvalidTokenMsg));
    }
    var users := db.users[uid := db.users[uid].(password := Some(password))];
    PasswordChangeKeeps(db.users, uid, Some(password));
    IssuedAfterRemoval(db.resetTokens, remaining, db.users, users);
    db.users, db.resetTokens := users, remaining;
    res := Response(200, Message(PasswordSetMsg));
  }

  /** POST /set-password with the redeemed token retired: every record holding the presented
      token for that user is deleted, so the token can be redeemed once only. */
  method SetPasswordSingleUse(db: Database, body: Option<SetPasswordFields>, now: int) returns (res: Response)
    requires db.Valid()
    modifies db
    ensures db.Valid()
    ensures AllIssued(old(db.resetTokens), old(db.users)) ==> AllIssued(db.resetTokens, db.users)
    ensures db.tasks == old(db.tasks) && db.outbox == old(db.outbox) && db.nextId == old(db.nextId)
    ensures res.status == 200 || res.status == 400
    ensures ScreenSetPassword(body, now).Refused? ==>
      res == Response(400, Message(ScreenSetPassword(body, now).message)) && unchanged(db)
    ensures ScreenSetPassword(body, now).Passed? ==>
      var s := ScreenSetPassword(body, now);
      var found := FindFirst(old(db.resetTokens), UserAndToken(s.userId, s.token));
      && (found.None? ==> res == Response(400, Message(InvalidOrExpiredMsg)) && unchanged(db))
      && (found.Some? && ExpiredAt(old(db.resetTokens)[found.value], now) ==>
            && res == Response(400, Message(ExpiredMsg))
            && db.users == old(db.users)
            && db.resetTokens == DeleteAll(old(db.resetTokens), UserAndToken(s.userId, s.token)))
      && (found.Some? && !ExpiredAt(old(db.resetTokens)[found.value], now) && s.userId !in old(db.users) ==>
            res == Response(400, Message(InvalidTokenMsg)) && unchanged(db))
      && (found.Some? && !ExpiredAt(old(db.resetTokens)[found.value], now) && s.userId in old(db.users) ==>
            && res == Response(200, Message(PasswordSetMsg))
            && db.users == old(db.users)[s.userId := old(db.users)[s.userId].(password := Some(s.password))]
            && db.resetTokens == DeleteAll(old(db.resetTokens), UserAndToken(s.userId, s.token)))
    ensures res.status == 200 ==>
      var s := ScreenSetPassword(body, now);
      FindFirst(db.resetTokens, UserAndToken(s.userId, s.token)).None?
  {
    var screening := ScreenSetPassword(body, now);
    if screening.Refused? {
      return Response(400, Message(screening.message));
    }
    var uid, token, password := screening.userId, screening.token, screening.password;
    var found := FindFirst(db.resetTokens, UserAndToken(uid, token));
    if found.None? {
      return Response(400, Message(InvalidOrExpiredMsg));
    }
    var remaining := DeleteAll(db.resetTokens, UserAndToken(uid, token));
    DeleteAllLeavesNoMatch(db.resetTokens, uid, token);
    if ExpiredAt(db.resetTokens[found.value], now) {
      IssuedAfterRemoval(db.resetTokens, remaining, db.users, db.users);
      db.resetTokens := remaining;
      return Response(400, Message(ExpiredMsg));
    }
    if uid !in db.users {
      return Response(400, Message(InvalidTokenMsg));
    }
    var users := db.users[uid := db.users[uid].(password := Some(password))];
    PasswordChangeKeeps(db.users, uid, Some(password));
    IssuedAfterRemoval(db.resetTokens, remaining, db.users, users);
    db.users, db.resetTokens := users, remaining;
    res := Response(200, Message(PasswordSetMsg));
  }

  // ---------------------------------------------------------------- login

  datatype LoginFields = LoginFields(email: Option<string>, password: Option<string>)

  /** POST /login: reads the users and answers; on success it sets the one-hour session
      cookie. An unknown email and a wrong password get different messages. */
  method Login(db: Database, body: LoginFields, now: int) returns (res: Response, cookie: Option<Cookie>)
    requires db.Valid()
    ensures !Filled(body.email) || !Filled(body.password) ==>
      res == Response(400, Message(CredentialsRequiredMsg)) && cookie.None?
    ensures Filled(body.email) && Filled(body.password) && !EmailTaken(db.users, body.email.value) ==>
      res == Response(400, Message(EmailUnknownMsg)) && cookie.None?
    ensures Filled(body.email) && Filled(body.password) ==>
      forall id :: id in db.users && db.users[id].email == body.email.value ==>
        && (!PasswordMatches(db.users[id].password, body.password.value) ==>
              res == Response(400, Message(InvalidPasswordMsg)) && cookie.None?)
        && (PasswordMatches(db.users[id].password, body.password.value) ==>
              && res == Response(200, LoginJson(LoginOkMsg, id, db.users[id].firstName, db.users[id].lastName, db.users[id].email))
              && cookie == Some(SessionCookie(Sign(id, SessionTtl, now))))
    ensures cookie.Some? <==> res.status == 200
  {
    if !Filled(body.email) || !Filled(body.password) {
      return Response(400, Message(CredentialsRequiredMsg)), None;
    }
    var email, password := body.email.value, body.password.value;
    if !EmailTaken(db.users, email) {
      return Response(400, Message(EmailUnknownMsg)), None;
    }
    var id :| id in db.users && db.users[id].email == email;
    var user := db.users[id];
    if !PasswordMatches(user.password, password) {
      return Response(400, Message(InvalidPasswordMsg)), None;
    }
    cookie := Some(SessionCookie(Sign(id, SessionTtl, now)));
    res := Response(200, LoginJson(LoginOkMsg, id, user.firstName, user.lastName, user.email));
  }

  // ---------------------------------------------------------------- profile

  /** GET /profile: the caller's user without its password, and the caller's tasks. */
  method Profile(db: Database, caller: ObjectId) returns (res: Response)
    ensures res.status == 200 && res.body.ProfileJson?
    ensures res.body.owned == OwnedBy(db.tasks, caller)
    ensures caller in db.users ==> res.body.account == Some(db.users[caller].(password := None))
    ensures caller !in db.users ==> res.body.account == None
    ensures forall id :: id in res.body.owned ==> res.body.owned[id].user == caller
  {
    var account := if caller in db.users then Some(db.users[caller].(password := None)) else None;
    res := Response(200, ProfileJson(account, OwnedBy(db.tasks, caller)));
  }

  datatype ProfileFields = ProfileFields(firstName: Option<string>, lastName: Option<string>, username: Option<string>, email: Option<string>)

  /** `if (value) user.field = value`. */
  function Overwrite(current: string, given: Option<string>): string
  {
    if Filled(given) then given.value else current
  }

  /** The user after profile/update: each field replaced when a truthy value was sent. */
  function UpdatedProfile(u: User, b: ProfileFields): User
  {
    u.(firstName := Overwrite(u.firstName, b.firstName),
       lastName := Overwrite(u.lastName, b.lastName),
       username := Overwrite(u.username, b.username),
       email := Overwrite(u.email, b.email))
  }

  /** PUT /profile/update: a new email must be free; the username is not checked again. */
  method UpdateProfile(db: Database, caller: ObjectId, body: ProfileFields) returns (res: Response)
    requires db.Valid()
    modifies db
    ensures db.Valid()
    ensures AllIssued(old(db.resetTokens), old(db.users)) ==> AllIssued(db.resetTokens, db.users)
    ensures db.resetTokens == old(db.resetTokens) && db.tasks == old(db.tasks)
    ensures db.outbox == old(db.outbox) && db.nextId == old(db.nextId)
    ensures caller !in old(db.users) ==> res == Response(404, Message(UserNotFoundMsg)) && unchanged(db)
    ensures caller in old(db.users) && Filled(body.email) && body.email.value != old(db.users)[caller].email
            && EmailTaken(old(db.users), body.email.value) ==>
      res == Response(400, Message(EmailInUseMsg)) && unchanged(db)
    ensures caller in old(db.users) && !(Filled(body.email) && body.email.value != old(db.users)[caller].email
            && EmailTaken(old(db.users), body.email.value)) ==>
      var u := UpdatedProfile(old(db.users)[caller], body);
      db.users == old(db.users)[caller := u] && res == Response(200, UserJson(ProfileUpdatedMsg, caller, u))
  {
    if caller !in db.users {
      return Response(404, Message(UserNotFoundMsg));
    }
    var user := db.users[caller];
    if Filled(body.email) && body.email.value != user.email {
      if EmailTaken(db.users, body.email.value) {
        return Response(400, Message(EmailInUseMsg));
      }
    }
    if Filled(body.firstName) { user := user.(firstName := body.firstName.value); }
    if Filled(body.lastName) { user := user.(lastName := body.lastName.value); }
    if Filled(body.username) { user := user.(username := body.username.value); }
    if Filled(body.email) { user := user.(email := body.email.value); }
    db.users := db.users[caller := user];
    res := Response(200, UserJson(ProfileUpdatedMsg, caller, user));
  }

  datatype PasswordChange = PasswordChange(oldPassword: Option<string>, newPassword: Option<string>)

  /** PUT /profile/update-password: the old password first, then the length policy. */
  method UpdatePassword(db: Database, caller: ObjectId, body: PasswordChange) returns (res: Response)
    requires db.Valid()
    modifies db
    ensures db.Valid()
    ensures AllIssued(old(db.resetTokens), old(db.users)) ==> AllIssued(db.resetTokens, db.users)
    ensures db.resetTokens == old(db.resetTokens) && db.tasks == old(db.tasks)
    ensures db.outbox == old(db.outbox) && db.nextId == old(db.nextId)
    ensures caller !in old(db.users) ==> res == Response(404, Message(UserNotFoundMsg)) && unchanged(db)
    ensures caller in old(db.users) ==>
      var u := old(db.users)[caller];
      && (!(body.oldPassword.Some? && PasswordMatches(u.password, body.oldPassword.value)) ==>
            res == Response(400, Message(IncorrectOldPasswordMsg)) && unchanged(db))
      && (body.oldPassword.Some? && PasswordMatches(u.password, body.oldPassword.value) ==>
            && (body.newPassword.None? ==> res == Response(500, Message(ServerErrorMsg)) && unchanged(db))
            && (body.newPassword.Some? && |body.newPassword.value| < MinPasswordLength ==>
                  res == Response(400, Message(PasswordTooShortMsg)) && unchanged(db))
            && (body.newPassword.Some? && |body.newPassword.value| >= MinPasswordLength ==>
                  && res == Response(200, Message(PasswordUpdatedMsg))
                  && db.users == old(db.users)[caller := u.(password := body.newPassword)]))
    ensures res.status == 200 ==> caller in db.users && PasswordMatches(db.users[caller].password, body.newPassword.value)
  {
    if caller !in db.users {
      return Response(404, Message(UserNotFoundMsg));
    }
    var user := db.users[caller];
    if !(body.oldPassword.Some? && PasswordMatches(user.password, body.oldPassword.value)) {
      return Response(400, Message(IncorrectOldPasswordMsg));
    }
    if body.newPassword.None? {
      // `newPassword.length` on undefined throws; the catch answers 500.
      return Response(500, Message(ServerErrorMsg));
    }
    if |body.newPassword.value| < MinPasswordLength {
      return Response(400, Message(PasswordTooShortMsg));
    }
    db.users := db.users[caller := user.(password := body.newPassword)];
    res := Response(200, Message(PasswordUpdatedMsg));
  }

  /** The profile holds an uploaded picture: set, non-empty and not the default one. */
  predicate HoldsCustomImage(profile: Option<string>)
  {
    Filled(profile) && !Contains(profile.value, DefaultProfileMarker)
  }

  /** PUT /profile/image, as written: the old picture is destroyed first; only then is
      `req.file.path` read, which throws when no file was uploaded. */
  method UpdateProfileImage(db: Database, images: ImageStore, caller: ObjectId, file: Option<string>, remoteSucceeds: bool)
    returns (res: Response)
    requires db.Valid()
    modifies db, images
    ensures db.Valid()
    ensures AllIssued(old(db.resetTokens), old(db.users)) ==> AllIssued(db.resetTokens, db.users)
    ensures db.resetTokens == old(db.resetTokens) && db.tasks == old(db.tasks)
    ensures db.outbox == old(db.outbox) && db.nextId == old(db.nextId)
    ensures caller !in old(db.users) ==>
      res == Response(404, Message(UserNotFoundMsg)) && unchanged(db) && unchanged(images)
    ensures caller in old(db.users) ==>
      var u := old(db.users)[caller];
      && images.destroyCalls == old(images.destroyCalls)
           + (if HoldsCustomImage(u.profile) then [DestroyCall(DestroyTarget(u.profile.value), remoteSucceeds)] else [])
      && (file.None? ==> res == Response(500, ServerFault(ServerErrorMsg, MissingFileFault)) && db.users == old(db.users))
      && (file.Some? ==>
            && db.users == old(db.users)[caller := u.(profile := file)]
            && res == Response(200, UserJson(ProfileImageUpdatedMsg, caller, u.(profile := file))))
  {
    if caller !in db.users {
      return Response(404, Message(UserNotFoundMsg));
    }
    var user := db.users[caller];
    if HoldsCustomImage(user.profile) {
      images.DeleteImage(user.profile.value, remoteSucceeds);
    }
    if file.None? {
      return Response(500, ServerFault(ServerErrorMsg, MissingFileFault));
    }
    user := user.(profile := file);
    db.users := db.users[caller := user];
    res := Response(200, UserJson(ProfileImageUpdatedMsg, caller, user));
  }

  /** PUT /profile/image with the upload checked first and the old picture released only
      after the new one is stored: a failed request never destroys a referenced picture. */
  method UpdateProfileImageChecked(db: Database, images: ImageStore, caller: ObjectId, file: Option<string>, remoteSucceeds: bool)
    returns (res: Response)
    requires db.Valid()
    modifies db, images
    ensures db.Valid()
    ensures AllIssued(old(db.resetTokens), old(db.users)) ==> AllIssued(db.resetTokens, db.users)
    ensures db.resetTokens == old(db.resetTokens) && db.tasks == old(db.tasks)
    ensures db.outbox == old(db.outbox) && db.nextId == old(db.nextId)
    ensures caller !in old(db.users) ==>
      res == Response(404, Message(UserNotFoundMsg)) && unchanged(db) && unchanged(images)
    ensures caller in old(db.users) && file.None? ==>
      res == Response(500, ServerFault(ServerErrorMsg, MissingFileFault)) && unchanged(db) && unchanged(images)
    ensures caller in old(db.users) && file.Some? ==>
      var u := old(db.users)[caller];
      && db.users == old(db.users)[caller := u.(profile := file)]
      && res == Response(200, UserJson(ProfileImageUpdatedMsg, caller, u.(profile := file)))
      && images.destroyCalls == old(images.destroyCalls)
           + (if HoldsCustomImage(u.profile) then [DestroyCall(DestroyTarget(u.profile.value), remoteSucceeds)] else [])
    ensures res.status != 200 ==> images.destroyCalls == old(images.destroyCalls)
  {
    if caller !in db.users {
      return Response(404, Message(UserNotFoundMsg));
    }
    if file.None? {
      return Response(500, ServerFault(ServerErrorMsg, MissingFileFault));
    }
    var user := db.users[caller];
    var previous := user.profile;
    user := user.(profile := file);
    db.users := db.users[caller := user];
    if HoldsCustomImage(previous) {
      images.DeleteImage(previous.value, remoteSucceeds);
    }
    res := Response(200, UserJson(ProfileImageUpdatedMsg, caller, user));
  }

  // ---------------------------------------------------------------- password reset

  /** POST /forgot-password: a known email gets a fresh reset record and a mailed link. */
  method ForgotPassword(db: Database, email: string, now: int) returns (res: Response)
    requires db.Valid()
    modifies db
    ensures db.Valid()
    ensures AllIssued(old(db.resetTokens), old(db.users)) ==> AllIssued(db.resetTokens, db.users)
    ensures db.users == old(db.users) && db.tasks == old(db.tasks)
    ensures !EmailTaken(old(db.users), email) ==> res == Response(404, Message(UserNotFoundMsg)) && unchanged(db)
    ensures EmailTaken(old(db.users), email) ==>
      forall id :: id in old(db.users) && old(db.users)[id].email == email ==>
        var rid := old(db.nextId);
        && res == Response(200, Message(ResetLinkSentMsg))
        && db.resetTokens == old(db.resetTokens) + [IssueRecord(rid, id, now)]
        && db.outbox == old(db.outbox) + [Mail(email, ResetSubject, Sign(id, ActivationTtl, now))]
        && db.nextId == rid + 1
  {
    if !EmailTaken(db.users, email) {
      return Response(404, Message(UserNotFoundMsg));
    }
    var id :| id in db.users && db.users[id].email == email;
    var record := IssueRecord(db.nextId, id, now);
    db.resetTokens := db.resetTokens + [record];
    db.nextId := db.nextId + 1;
    db.outbox := db.outbox + [Mail(email, ResetSubject, record.token.value)];
    res := Response(200, Message(ResetLinkSentMsg));
  }

  datatype ResetFields = ResetFields(token: Option<Token>, newPassword: string)

  /** POST /reset-password: only a record for the token's user, holding that token and still
      live (`expiresAt > now`), is redeemed; it alone is deleted, by its id. Any new password
      is accepted. */
  method ResetPassword(db: Database, body: ResetFields, now: int) returns (res: Response)
    requires db.Valid()
    modifies db
    ensures db.Valid()
    ensures AllIssued(old(db.resetTokens), old(db.users)) ==> AllIssued(db.resetTokens, db.users)
    ensures db.tasks == old(db.tasks) && db.outbox == old(db.outbox) && db.nextId == old(db.nextId)
    ensures body.token.None? || Verify(body.token.value, now).None? ==>
      res == Response(400, Message(InvalidTokenMsg)) && unchanged(db)
    ensures body.token.Some? && Verify(body.token.value, now).Some? ==>
      var uid := Verify(body.token.value, now).value;
      var found := FindFirst(old(db.resetTokens), UserTokenLive(uid, body.token.value, now));
      && (found.None? ==> res == Response(400, Message(InvalidOrExpiredResetMsg)) && unchanged(db))
      && (found.Some? && uid !in old(db.users) ==> res == Response(400, Message(InvalidTokenMsg)) && unchanged(db))
      && (found.Some? && uid in old(db.users) ==>
            && res == Response(200, Message(PasswordResetMsg))
            && db.users == old(db.users)[uid := old(db.users)[uid].(password := Some(body.newPassword))]
            && db.resetTokens == old(db.resetTokens)[..found.value] + old(db.resetTokens)[found.value + 1..])
    ensures res.status == 200 <==>
      && body.token.Some? && Verify(body.token.value, now).Some?
      && Verify(body.token.value, now).value in old(db.users)
      && exists r :: r in old(db.resetTokens) && Matches(r, UserTokenLive(Verify(body.token.value, now).value, body.token.value, now))
  {
    if body.token.None? {
      // `jwt.verify(undefined)` throws.
      return Response(400, Message(InvalidTokenMsg));
    }
    var decoded := Verify(body.token.value, now);
    if decoded.None? {
      return Response(400, Message(InvalidTokenMsg));
    }
    var uid := decoded.value;
    var found := FindFirst(db.resetTokens, UserTokenLive(uid, body.token.value, now));
    if found.None? {
      return Response(400, Message(InvalidOrExpiredResetMsg));
    }
    if uid !in db.users {
      return Response(400, Message(InvalidTokenMsg));
    }
    var k := found.value;
    DeleteByIdRemovesExactly(db.resetTokens, k);
    RemovalKeeps(db.resetTokens, k);
    var remaining := DeleteOne(db.resetTokens, WithId(db.resetTokens[k].id));
    var users := db.users[uid := db.users[uid].(password := Some(body.newPassword))];
    PasswordChangeKeeps(db.users, uid, Some(body.newPassword));
    IssuedAfterRemoval(db.resetTokens, remaining, db.users, users);
    db.users, db.resetTokens := users, remaining;
    res := Response(200, Message(PasswordResetMsg));
  }
}

=== FILE: cloudinary.dfy ===
/** config/cloudinary.js: where uploads go, which formats they may have, and `deleteImage`,
    which turns a stored image URL into the public id it asks Cloudinary to destroy. The
    remote store is represented only by the log of destroy calls it receives. */
module Cloudinary {
  import opened Wrappers
  import opened Strings

  /** `params.folder` of the upload storage. */
  const Folder: string := "task-images"

  /** `params.allowed_formats` of the upload storage. */
  const AllowedFormats: set<string> := {"jpg", "png", "jpeg"}

  /** `imageUrl.split('/').pop().split('.')[0]`. */
  function PublicId(url: string): string
  {
    FirstSegment(LastSegment(url, '/'), '.')
  }

  /** The argument of `cloudinary.uploader.destroy`, for task and profile images alike. */
  function DestroyTarget(url: string): string
  {
    Folder + "/" + PublicId(url)
  }

  /** The delivery URL Cloudinary returns (and multer stores as `req.file.path`) for an
      upload named `name` in the configured folder. */
  function DeliveryUrl(cloud: string, version: string, name: string, format: string): string
  {
    "https://res.cloudinary.com/" + cloud + "/image/upload/v" + version + "/" + Folder + "/" + name + "." + format
  }

  /** An upload of `name` in `format`: its URL when the format is allowed, nothing when the
      storage rejects it. Whatever URL an accepted upload yields, `deleteImage` on it destroys
      exactly that upload. */
  function Upload(cloud: string, version: string, name: string, format: string): (r: Option<string>)
    requires '/' !in name && '.' !in name
    ensures r.Some? <==> format in AllowedFormats
    ensures r.Some? ==> DestroyTarget(r.value) == Folder + "/" + name
  {
    if format in AllowedFormats then
      DestroyTargetOfDelivery(cloud, version, name, format);
      Some(DeliveryUrl(cloud, version, name, format))
    else None
  }

  /** The public id extraction inverts the delivery URL: the destroy call names the folder and
      the upload's own name. */
  lemma DestroyTargetOfDelivery(cloud: string, version: string, name: string, format: string)
    requires '/' !in name && '.' !in name
    requires format in AllowedFormats
    ensures DestroyTarget(DeliveryUrl(cloud, version, name, format)) == Folder + "/" + name
  {
    var prefix := "https://res.cloudinary.com/" + cloud + "/image/upload/v" + version + "/" + Folder;
    var file := name + "." + format;
    assert '/' !in format;
    assert '/' !in file by {
      forall i | 0 <= i < |file| ensures file[i] != '/' {
        if i < |name| { assert file[i] == name[i]; }
        else if i > |name| { assert file[i] == format[i - |name| - 1]; }
      }
    }
    assert DeliveryUrl(cloud, version, name, format) == prefix + ['/'] + file;
    LastSegmentAfter(prefix, '/', file);
    assert file == name + ['.'] + format;
    FirstSegmentBefore(name, '.', format);
  }

  /** The worked example: `a/b/x.y.jpg` names the public id `x`. */
  lemma PublicIdExample()
    ensures PublicId("a/b/x.y.jpg") == "x"
    ensures DestroyTarget("a/b/x.y.jpg") == "task-images/x"
  {
    LastSegmentAfter("a/b", '/', "x.y.jpg");
    FirstSegmentBefore("x", '.', "y.jpg");
    assert "a/b" + ['/'] + "x.y.jpg" == "a/b/x.y.jpg";
    assert "x" + ['.'] + "y.jpg" == "x.y.jpg";
  }

  /** One call of `uploader.destroy`: its target, `task-images/<public id>`, and whether the
      remote call succeeded. */
  datatype DestroyCall = DestroyCall(target: string, succeeded: bool)

  /** The remote image store, as far as the core touches it. */
  class ImageStore {
    var destroyCalls: seq<DestroyCall>

    constructor ()
      ensures destroyCalls == []
    {
      destroyCalls := [];
    }

    /** `deleteImage(imageUrl)`: one destroy call for the URL's public id; a remote failure is
        caught and logged, so the caller always carries on (there is no failure result). */
    method DeleteImage(imageUrl: string, remoteSucceeds: bool)
      modifies this
      ensures destroyCalls == old(destroyCalls) + [DestroyCall(DestroyTarget(imageUrl), remoteSucceeds)]
    {
      var publicId := PublicId(imageUrl);
      destroyCalls := destroyCalls + [DestroyCall(Folder + "/" + publicId, remoteSucceeds)];
    }
  }
}

=== FILE: http.dfy ===
/** What a handler sends back: a status, a JSON body, and the session cookie it sets or clears. */
module Http {
  import opened Wrappers
  import opened Mongo
  import opened Jwt
  import opened TaskModel
  import opened Store

  datatype Body =
    | Message(text: string)                           // { message }
    | ServerFault(text: string, detail: string)       // { message, error: error.message }
    | Text(text: string)                              // a bare JSON string
    | Errors(messages: seq<string>)                   // { errors } from the validators
    | UserJson(text: string, id: ObjectId, user: User)  // { message, user }
    | LoginJson(text: string, id: ObjectId, firstName: string, lastName: string, email: string)
    | TaskJson(text: string, id: ObjectId, task: Task)  // { message, task }
    | OneTask(id: ObjectId, task: Task)
    | TaskList(tasks: map<ObjectId, Task>)
    | ProfileJson(account: Option<User>, owned: map<ObjectId, Task>)

  datatype Response = Response(status: int, body: Body)

  /** `res.cookie('token', token, { httpOnly, sameSite, maxAge })`. */
  datatype Cookie = Cookie(name: string, value: Token, httpOnly: bool, sameSite: string, maxAgeMs: int)

  /** The session cookie login sets: `httpOnly`, `sameSite: 'lax'`, `maxAge: 3600000`. */
  function SessionCookie(t: Token): Cookie
  {
    Cookie("token", t, true, "lax", 3600000)
  }
}

=== FILE: jwt.dfy ===
/** The JSON Web Tokens (RFC 7519) the server signs for sessions and for the emailed
    set-password and reset links. Signatures are abstracted away: a `Signed` token is one this
    server produced with its secret, and anything else a client presents (tampered, foreign or
    garbage) is `Forged`. Times: the server clock `now` counts milliseconds (`Date.now()`);
    the `iat` and `exp` claims are NumericDates in whole seconds. */
module Jwt {
  import opened Wrappers
  import opened Mongo

  /** The payload `{ id }` plus the claims the signing library adds. */
  datatype Claims = Claims(id: ObjectId, iat: int, exp: int)

  datatype Token = Signed(claims: Claims) | Forged(raw: string)

  /** `expiresIn: '15m'`, for the set-password and reset links. */
  const ActivationTtl: int := 15 * 60
  /** `expiresIn: '1h'`, for the session cookie. */
  const SessionTtl: int := 60 * 60

  /** The library's `Math.floor(Date.now() / 1000)`; `/` with a positive divisor floors. */
  function NumericDate(nowMs: int): int
  {
    nowMs / 1000
  }

  /** `jwt.sign({ id }, secret, { expiresIn: ttl })` at clock `now`. */
  function Sign(id: ObjectId, ttl: int, now: int): Token
  {
    Signed(Claims(id, NumericDate(now), NumericDate(now) + ttl))
  }

  /** `jwt.verify(token, secret)`: the payload's id, or nothing when the token is not one of
      ours or its `exp` is reached (section 4.1.4 of RFC 7519: the current time must be
      before the expiration time). */
  function Verify(t: Token, now: int): Option<ObjectId>
  {
    if t.Signed? && NumericDate(now) < t.claims.exp then Some(t.claims.id) else None
  }

  /** JavaScript truthiness of a token field: absent and the empty string are falsy. */
  predicate Present(t: Option<Token>)
  {
    t.Some? && t.value != Forged("")
  }

  /** A token verifies to the id it was signed for exactly while its whole-second clock is
      below the signing second plus the lifetime. */
  lemma VerifySign(id: ObjectId, ttl: int, signedAt: int, now: int)
    ensures Verify(Sign(id, ttl, signedAt), now) == Some(id)
        <==> NumericDate(now) < NumericDate(signedAt) + ttl
    ensures Verify(Sign(id, ttl, signedAt), now).None?
        <==> NumericDate(now) >= NumericDate(signedAt) + ttl
  {
  }

  /** Once a token fails verification it fails at every later instant. */
  lemma ExpiryIsFinal(t: Token, now: int, later: int)
    requires now <= later
    requires Verify(t, now).None?
    ensures Verify(t, later).None?
  {
    assert NumericDate(now) <= NumericDate(later);
  }

  /** A token whose `exp`, read in milliseconds, is no later than `deadline` can only verify
      strictly before `deadline`. */
  lemma LiveBeforeDeadline(c: Claims, now: int, deadline: int)
    requires c.exp * 1000 <= deadline
    requires NumericDate(now) < c.exp
    ensures now < deadline
  {
    var sec := NumericDate(now);
    assert now < (sec + 1) * 1000;
    assert (sec + 1) * 1000 <= c.exp * 1000;
  }

  /** A token signed at `signedAt` with lifetime `ttl` is dead by `signedAt + ttl * 1000`
      milliseconds: flooring the signing instant only shortens its life. */
  lemma SignedLifetimeWithin(id: ObjectId, ttl: int, signedAt: int, now: int)
    requires Verify(Sign(id, ttl, signedAt), now).Some?
    ensures now < signedAt + ttl * 1000
  {
    var c := Sign(id, ttl, signedAt).claims;
    assert NumericDate(signedAt) * 1000 <= signedAt;
    assert c.exp * 1000 == NumericDate(signedAt) * 1000 + ttl * 1000;
    LiveBeforeDeadline(c, now, signedAt + ttl * 1000);
  }
}

=== FILE: mongo.dfy ===
/** Identifiers of the persistence layer. MongoDB's generated ObjectIds are modelled as
    natural numbers handed out by a counter; a route parameter is either an id or a string
    that Mongoose cannot cast to one. */
module Mongo {

  type ObjectId = nat

  /** `req.params.id` as Mongoose sees it when it casts a filter on `_id`. */
  datatype IdParam = Id(value: ObjectId) | NotAnObjectId
}

=== FILE: reset_token.dfy ===
/** models/PasswordResetToken.js: the record behind every emailed set-password or reset
    link, and the Mongo queries the handlers run over the collection of such records.
    The collection is a sequence in natural (insertion) order, because `findOne` and
    `deleteOne` act on the first record that matches. */
module ResetTokens {
  import opened Wrappers
  import opened Mongo
  import opened Jwt

  /** The schema marks its fields with the misspelled option `require`, which Mongoose
      ignores: no field is mandatory, so `userId` and `token` may be missing. */
  datatype ResetToken = ResetToken(id: ObjectId, userId: Option<ObjectId>, token: Option<Token>, expiresAt: int)

  /** `new Date(Date.now() + 15 * 60 * 1000)`: the handlers' record lifetime, in ms. */
  const ResetWindowMs: int := 15 * 60 * 1000

  /** `new PasswordResetToken({ ... })` at clock `now`: `expiresAt` defaults to `Date.now`. */
  function NewRecord(id: ObjectId, userId: Option<ObjectId>, token: Option<Token>, expiresAt: Option<int>, now: int): ResetToken
  {
    ResetToken(id, userId, token, if expiresAt.Some? then expiresAt.value else now)
  }

  /** set-password's staleness test, `resetToken.expiresAt < new Date()`. */
  predicate ExpiredAt(r: ResetToken, now: int)
  {
    r.expiresAt < now
  }

  /** reset-password's liveness filter, `expiresAt: { $gt: new Date() }`. */
  predicate LiveAt(r: ResetToken, now: int)
  {
    r.expiresAt > now
  }

  /** The filters the handlers pass to `findOne` and `deleteOne`. */
  datatype Filter =
    | UserAndToken(userId: ObjectId, token: Token)                // { userId, token }
    | UserTokenLive(userId: ObjectId, token: Token, now: int)     // { userId, token, expiresAt: { $gt: now } }
    | OfUser(userId: ObjectId)                                    // { userId }
    | WithId(id: ObjectId)                                        // { _id }

  predicate Matches(r: ResetToken, f: Filter)
  {
    match f
    case UserAndToken(u, t) => r.userId == Some(u) && r.token == Some(t)
    case UserTokenLive(u, t, now) => r.userId == Some(u) && r.token == Some(t) && LiveAt(r, now)
    case OfUser(u) => r.userId == Some(u)
    case WithId(id) => r.id == id
  }

  /** `findOne(f)`: the index of the first record in natural order that matches. */
  function FindFirst(rs: seq<ResetToken>, f: Filter): (k: Option<nat>)
    ensures k.Some? ==> k.value < |rs| && Matches(rs[k.value], f)
    ensures k.Some? ==> forall j :: 0 <= j < k.value ==> !Matches(rs[j], f)
    ensures k.None? ==> forall j :: 0 <= j < |rs| ==> !Matches(rs[j], f)
  {
    if |rs| == 0 then None
    else if Matches(rs[0], f) then Some(0)
    else
      match FindFirst(rs[1..], f)
      case None => None
      case Some(k) => Some(k + 1)
  }

  /** `deleteOne(f)`: removes the record `findOne(f)` would return, and nothing else. */
  function DeleteOne(rs: seq<ResetToken>, f: Filter): (r: seq<ResetToken>)
    ensures FindFirst(rs, f).None? ==> r == rs
    ensures FindFirst(rs, f).Some? ==>
      var k := FindFirst(rs, f).value; r == rs[..k] + rs[k + 1..]
  {
    if |rs| == 0 then []
    else if Matches(rs[0], f) then rs[1..]
    else
      var rest := DeleteOne(rs[1..], f);
      assert FindFirst(rs[1..], f).Some? ==>
        var k := FindFirst(rs[1..], f).value;
        [rs[0]] + (rs[1..][..k] + rs[1..][k + 1..]) == rs[..k + 1] + rs[k + 2..];
      [rs[0]] + rest
  }

  /** `deleteMany(f)`: removes every record that matches. */
  function DeleteAll(rs: seq<ResetToken>, f: Filter): (r: seq<ResetToken>)
    ensures forall x :: x in r <==> x in rs && !Matches(x, f)
    ensures |r| <= |rs|
    ensures DistinctIds(rs) ==> DistinctIds(r)
  {
    if |rs| == 0 then []
    else if Matches(rs[0], f) then DeleteAll(rs[1..], f)
    else
      var rest := DeleteAll(rs[1..], f);
      assert DistinctIds(rs) ==> forall x :: x in rest ==> x.id != rs[0].id by {
        if DistinctIds(rs) {
          forall x | x in rest ensures x.id != rs[0].id {
            var j :| 0 <= j < |rs[1..]| && rs[1..][j] == x;
            assert rs[j + 1] == x;
          }
        }
      }
      [rs[0]] + rest
  }

  /** Every record has its own `_id`. */
  predicate DistinctIds(rs: seq<ResetToken>)
  {
    forall i, j :: 0 <= i < j < |rs| ==> rs[i].id != rs[j].id
  }

  /** Removing one record keeps the others, and keeps their ids distinct. */
  lemma RemovalKeeps(rs: seq<ResetToken>, k: nat)
    requires k < |rs|
    ensures forall x :: x in rs[..k] + rs[k + 1..] ==> x in rs
    ensures DistinctIds(rs) ==> DistinctIds(rs[..k] + rs[k + 1..])
  {
    var r := rs[..k] + rs[k + 1..];
    forall i | 0 <= i < |r| ensures r[i] == rs[if i < k then i else i + 1] {
    }
  }

  /** Whatever `deleteOne` removes, the rest of the collection survives unchanged. */
  lemma DeleteOneKeeps(rs: seq<ResetToken>, f: Filter)
    ensures forall x :: x in DeleteOne(rs, f) ==> x in rs
    ensures DistinctIds(rs) ==> DistinctIds(DeleteOne(rs, f))
  {
    if FindFirst(rs, f).Some? {
      RemovalKeeps(rs, FindFirst(rs, f).value);
    }
  }

  /** A record saved without an explicit expiry is at its limit from the first instant:
      set-password still treats it as fresh (its test is strict), reset-password already
      refuses it (its filter is strict the other way), and one millisecond later both do. */
  lemma DefaultExpiryAtLimit(id: ObjectId, userId: Option<ObjectId>, token: Option<Token>, now: int)
    ensures var r := NewRecord(id, userId, token, None, now);
      !ExpiredAt(r, now) && !LiveAt(r, now) && ExpiredAt(r, now + 1)
  {
  }

  /** The two handlers disagree only at the instant `expiresAt` itself: before it both accept
      the record, after it both refuse it. */
  lemma ExpiryBoundaries(r: ResetToken, now: int)
    ensures now < r.expiresAt ==> LiveAt(r, now) && !ExpiredAt(r, now)
    ensures now == r.expiresAt ==> !LiveAt(r, now) && !ExpiredAt(r, now)
    ensures now > r.expiresAt ==> !LiveAt(r, now) && ExpiredAt(r, now)
  {
  }

  /** Deleting by `_id` removes exactly the record at `k`, given distinct ids. */
  lemma DeleteByIdRemovesExactly(rs: seq<ResetToken>, k: nat)
    requires DistinctIds(rs)
    requires k < |rs|
    ensures FindFirst(rs, WithId(rs[k].id)) == Some(k)
    ensures DeleteOne(rs, WithId(rs[k].id)) == rs[..k] + rs[k + 1..]
    ensures rs[k] !in DeleteOne(rs, WithId(rs[k].id))
  {
    var f := WithId(rs[k].id);
    var found := FindFirst(rs, f);
    assert found.Some?;
    assert Matches(rs[k], f);
    var r := rs[..k] + rs[k + 1..];
    forall i | 0 <= i < |r| ensures r[i] != rs[k] {
      if i < k { assert r[i] == rs[i]; } else { assert r[i] == rs[i + 1]; }
    }
  }

  /** Deleting "one record of this user" when the user has an older record than the one
      matched by token removes the older one: the matched record survives. */
  lemma DeleteByUserSparesLaterMatch(rs: seq<ResetToken>, u: ObjectId, t: Token, k: nat)
    requires FindFirst(rs, UserAndToken(u, t)) == Some(k)
    requires FindFirst(rs, OfUser(u)) != Some(k)
    ensures FindFirst(DeleteOne(rs, OfUser(u)), UserAndToken(u, t)).Some?
  {
    var j := FindFirst(rs, OfUser(u));
    assert Matches(rs[k], OfUser(u));
    assert j.Some? && j.value < k;
    var r := DeleteOne(rs, OfUser(u));
    assert r == rs[..j.value] + rs[j.value + 1..];
    assert r[k - 1] == rs[k];
    assert Matches(r[k - 1], UserAndToken(u, t));
  }

  /** Deleting every record of a user with a given token leaves none to redeem. */
  lemma DeleteAllLeavesNoMatch(rs: seq<ResetToken>, u: ObjectId, t: Token)
    ensures FindFirst(DeleteAll(rs, UserAndToken(u, t)), UserAndToken(u, t)).None?
  {
    var r := DeleteAll(rs, UserAndToken(u, t));
    forall j | 0 <= j < |r| ensures !Matches(r[j], UserAndToken(u, t)) {
      assert r[j] in r;
    }
  }
}

=== FILE: scenarios.dfy ===
/** Concrete request sequences against a fresh database: each method runs the handlers in
    order and its postcondition pins what the client sees. They exhibit the behaviours the
    handlers promise end to end, and the defects listed under Findings, side by side with
    the corrected handlers. */
module Scenarios {
  import opened Wrappers
  import opened Mongo
  import opened Strings
  import opened Jwt
  import opened ResetTokens
  import opened TaskModel
  import opened Cloudinary
  import opened Store
  import opened Http
  import opened AuthMiddleware
  import opened AuthRoutes
  import opened TaskRoutes

  /** An arbitrary instant, in milliseconds. */
  const T0: int := 1_700_000_000_000

  const AdaEmail: string := "a@x.io"
  const BobEmail: string := "b@x.io"
  const AdaPassword: string := "correct horse"

  lemma AdaEmailValid()
    ensures IsEmail(AdaEmail)
  {
    assert AdaEmail == "a" + ['@'] + "x.io";
    FirstSegmentBefore("a", '@', "x.io");
    assert "x.io"[1..3][0] == '.';
  }

  lemma BobEmailValid()
    ensures IsEmail(BobEmail)
  {
    assert BobEmail == "b" + ['@'] + "x.io";
    FirstSegmentBefore("b", '@', "x.io");
    assert "x.io"[1..3][0] == '.';
  }

  function AdaSignup(): SignupFields
  {
    SignupFields(Some("Ada"), Some("Lovelace"), Some("ada"), Some(AdaEmail))
  }

  function BobSignup(): SignupFields
  {
    SignupFields(Some("Bob"), Some("Babbage"), Some("bob"), Some(BobEmail))
  }

  /** The body a client sends to set a password from an emailed link. */
  function SetFrom(t: Token, password: string): Option<SetPasswordFields>
  {
    Some(SetPasswordFields(Some(t), Some(password), Some(password)))
  }

  function AdaUser(): User
  {
    User("Ada", "Lovelace", "ada", AdaEmail, None, None)
  }

  /** The user a signup body creates. */
  function NewUser(b: SignupFields): User
    requires b.firstName.Some? && b.lastName.Some? && b.username.Some? && b.email.Some?
  {
    User(b.firstName.value, b.lastName.value, b.username.value, b.email.value, None, None)
  }

  /** A fresh database after one accepted signup at `T0`. */
  method FirstSignup(body: SignupFields) returns (db: Database, res: Response)
    requires SignupErrors(body) == []
    ensures fresh(db) && db.Valid()
    ensures res.status == 201
    ensures db.users == map[0 := NewUser(body)] && db.tasks == map[] && db.nextId == 2
    ensures db.resetTokens == [IssueRecord(1, 0, T0)]
    ensures db.outbox == [Mail(body.email.value, SetupSubject, Sign(0, ActivationTtl, T0))]
  {
    db := new Database();
    res := Signup(db, body, T0);
  }

  lemma AdaSignupAccepted()
    ensures SignupErrors(AdaSignup()) == []
    ensures NewUser(AdaSignup()) == AdaUser()
  {
    AdaEmailValid();
  }

  /** A fresh database after Ada's signup at `T0`. */
  method AdaSignedUp() returns (db: Database, res: Response)
    ensures fresh(db) && db.Valid()
    ensures res.status == 201
    ensures db.users == map[0 := AdaUser()] && db.tasks == map[] && db.nextId == 2
    ensures db.resetTokens == [IssueRecord(1, 0, T0)]
    ensures db.outbox == [Mail(AdaEmail, SetupSubject, Sign(0, ActivationTtl, T0))]
  {
    AdaSignupAccepted();
    db, res := FirstSignup(AdaSignup());
  }

  /** Ada signs up at `T0` and sets her password from the emailed link a minute later. */
  method AdaActivated() returns (db: Database, statuses: seq<int>)
    ensures fresh(db) && db.Valid()
    ensures statuses == [201, 200]
    ensures db.users == map[0 := AdaUser().(password := Some(AdaPassword))]
    ensures db.tasks == map[] && db.resetTokens == [] && db.nextId == 2
  {
    var signup;
    db, signup := AdaSignedUp();
    var link := Sign(0, ActivationTtl, T0);
    assert FindFirst(db.resetTokens, UserAndToken(0, link)) == Some(0);
    assert FindFirst(db.resetTokens, OfUser(0)) == Some(0);
    var setUp := SetPassword(db, SetFrom(link, AdaPassword), T0 + 60_000);
    statuses := [signup.status, setUp.status];
  }

  /** Sign up, set the password from the emailed link, log in, then create and read a task
      with the session cookie. */
  method AdaWithTask() returns (db: Database, statuses: seq<int>, task: Task)
    ensures fresh(db) && db.Valid()
    ensures statuses == [201, 200, 200, 201, 200]
    ensures db.tasks == map[2 := task]
    ensures task.user == 0 && task.image == DefaultTaskImage && task.status == "pending"
  {
    var activation;
    db, activation := AdaActivated();
    assert EmailTaken(db.users, AdaEmail) by { assert db.users[0].email == AdaEmail; }
    var login, cookie := Login(db, LoginFields(Some(AdaEmail), Some(AdaPassword)), T0 + 120_000);
    assert cookie == Some(SessionCookie(Sign(0, SessionTtl, T0 + 120_000)));
    var now := T0 + 180_000;
    assert Decide(Jar(Some(cookie.value.value)), now) == Authenticated(0);

    var fields := TaskFields(Some("Write notes"), Some("On the engine"), Some(T0), Some("pending"));
    var created := CreateTask(db, 0, fields, None, now);
    task := db.tasks[2];
    var shown := GetTask(db, 0, Id(2));
    statuses := activation + [login.status, created.status, shown.status];
  }

  /** The account and task lifecycle with the corrected delete (`DeleteTask`): after the
      delete the task is gone and a second read answers 400. */
  method AccountAndTaskLifecycle() returns (statuses: seq<int>, task: Option<Task>)
    ensures statuses == [201, 200, 200, 201, 200, 200, 400]
    ensures task.Some? && task.value.user == 0 && task.value.image == DefaultTaskImage && task.value.status == "pending"
  {
    var db, before, t := AdaWithTask();
    task := Some(t);
    var deleted := DeleteTask(db, 0, Id(2));
    var gone := GetTask(db, 0, Id(2));
    statuses := before + [deleted.status, gone.status];
  }

  /** The same lifecycle with the shipped delete (`DeleteTaskAsWritten`): the delete answers
      500, the task stays, and the second read still shows it. */
  method AccountAndTaskLifecycleAsWritten() returns (statuses: seq<int>, kept: bool)
    ensures statuses == [201, 200, 200, 201, 200, 500, 200]
    ensures kept
  {
    var db, before, t := AdaWithTask();
    var deleted := DeleteTaskAsWritten(db, 0, Id(2));
    var still := GetTask(db, 0, Id(2));
    kept := 2 in db.tasks;
    statuses := before + [deleted.status, still.status];
  }

  /** Another user's task is hidden from the scoped read, and the shipped list shows it. */
  method ListLeaksOtherUsersTasks() returns (asWritten: Response, intended: Response, probe: Response)
    ensures asWritten.status == 200 && asWritten.body.TaskList? && 0 in asWritten.body.tasks
    ensures asWritten.body.tasks[0].user == 7
    ensures intended.status == 200 && intended.body == TaskList(map[])
    ensures probe == Response(400, Text(GetNotFoundMsg))
  {
    var db := new Database();
    var fields := TaskFields(Some("Private"), Some("Only mine"), Some(T0), Some("done"));
    var created := CreateTask(db, 7, fields, None, T0);
    asWritten := ListTasks(db, 8);
    intended := ListOwnTasks(db, 8);
    assert intended.body.tasks == map[];
    probe := GetTask(db, 8, Id(0));
  }

  /** Ada signs up at `T0` and asks for a reset link five seconds later: two records, the
      setup one first. */
  method AdaWithResetLink() returns (db: Database)
    ensures fresh(db) && db.Valid()
    ensures db.users == map[0 := AdaUser()] && db.nextId == 3
    ensures db.resetTokens == [IssueRecord(1, 0, T0), IssueRecord(2, 0, T0 + 5_000)]
  {
    var signup;
    db, signup := AdaSignedUp();
    assert EmailTaken(db.users, AdaEmail) by { assert db.users[0].email == AdaEmail; }
    var forgot := ForgotPassword(db, AdaEmail, T0 + 5_000);
  }

  /** With a setup link and a later reset link outstanding, set-password with the reset link
      deletes the user's first record (the setup one) and leaves the redeemed one in place, so
      the same link sets the password a second time. */
  method SetPasswordReplay() returns (statuses: seq<int>, password: Option<string>)
    ensures statuses == [200, 200]
    ensures password == Some("attacker's")
  {
    var db := AdaWithResetLink();
    var reset := Sign(0, ActivationTtl, T0 + 5_000);
    assert FindFirst(db.resetTokens, UserAndToken(0, reset)) == Some(1);
    assert FindFirst(db.resetTokens, OfUser(0)) == Some(0);
    var first := SetPassword(db, SetFrom(reset, "first choice"), T0 + 10_000);
    assert db.resetTokens == [IssueRecord(2, 0, T0 + 5_000)];
    assert FindFirst(db.resetTokens, UserAndToken(0, reset)) == Some(0);
    var again := SetPassword(db, SetFrom(reset, "attacker's"), T0 + 20_000);
    statuses := [first.status, again.status];
    password := db.users[0].password;
  }

  /** The same requests against the single-use handler: the replay is refused and the first
      password stays. */
  method SetPasswordReplayRefused() returns (statuses: seq<int>, password: Option<string>)
    ensures statuses == [200, 400]
    ensures password == Some("first choice")
  {
    var db := AdaWithResetLink();
    var reset := Sign(0, ActivationTtl, T0 + 5_000);
    assert FindFirst(db.resetTokens, UserAndToken(0, reset)) == Some(1);
    assert ScreenSetPassword(SetFrom(reset, "first choice"), T0 + 10_000) == Passed(0, reset, "first choice");
    var once := SetPasswordSingleUse(db, SetFrom(reset, "first choice"), T0 + 10_000);
    assert once.status == 200 && db.users == map[0 := AdaUser().(password := Some("first choice"))];
    assert ScreenSetPassword(SetFrom(reset, "attacker's"), T0 + 20_000) == Passed(0, reset, "attacker's");
    var twice := SetPasswordSingleUse(db, SetFrom(reset, "attacker's"), T0 + 20_000);
    statuses := [once.status, twice.status];
    password := db.users[0].password;
  }

  /** The shipped update and delete answer 500 on the owner's own task; the handlers they
      evidently mean change it. */
  method TaslTypo() returns (asWritten: seq<int>, intended: seq<int>)
    ensures asWritten == [500, 500]
    ensures intended == [200, 200]
  {
    var db := new Database();
    var fields := TaskFields(Some("Draft"), Some("Notes"), Some(T0), Some("pending"));
    var created := CreateTask(db, 3, fields, None, T0);
    var patch := TaskPatch(None, None, None, None, Some("done"), None);
    var u1 := UpdateTaskAsWritten(db, 3, Id(0), patch);
    var d1 := DeleteTaskAsWritten(db, 3, Id(0));
    asWritten := [u1.status, d1.status];
    var u2 := UpdateTask(db, 3, Id(0), patch, T0 + 1);
    var d2 := DeleteTask(db, 3, Id(0));
    intended := [u2.status, d2.status];
  }

  function BobUser(): User
  {
    User("Bob", "Babbage", "bob", BobEmail, None, None)
  }

  /** Ada and then Bob sign up. */
  method AdaAndBob() returns (db: Database)
    ensures fresh(db) && db.Valid()
    ensures db.users == map[0 := AdaUser(), 2 := BobUser()]
  {
    var ada;
    db, ada := AdaSignedUp();
    BobEmailValid();
    assert SignupErrors(BobSignup()) == [];
    assert !Clash(db.users, BobEmail, "bob");
    var bob := Signup(db, BobSignup(), T0);
  }

  /** Signup refuses a username that is taken, even with a free email. */
  method DuplicateUsernameRefused() returns (refused: Response)
    ensures refused == Response(409, Message(UsernameTakenMsg))
  {
    var db := AdaAndBob();
    var eve := SignupFields(Some("Eve"), Some("Doe"), Some("ada"), Some("e@x.io"));
    assert "e@x.io" == "e" + ['@'] + "x.io";
    FirstSegmentBefore("e", '@', "x.io");
    assert "x.io"[1..3][0] == '.';
    assert SignupErrors(eve) == [];
    assert Clash(db.users, "e@x.io", "ada") by { assert db.users[0].username == "ada"; }
    assert !EmailTaken(db.users, "e@x.io");
    refused := Signup(db, eve, T0);
  }

  /** A profile update, by contrast, takes a username that is taken without a check: two
      users end up sharing it. */
  method UsernameTakenThroughProfile() returns (updated: Response, holders: set<ObjectId>)
    ensures updated.status == 200
    ensures holders == {0, 2}
  {
    var db := AdaAndBob();
    updated := UpdateProfile(db, 2, ProfileFields(None, None, Some("ada"), None));
    holders := set id | id in db.users && db.users[id].username == "ada";
    assert db.users.Keys == {0, 2};
    assert holders == {0, 2};
  }

  /** The profile picture URL the scenario uploads. */
  const PictureUrl: string := "u/task-images/pic.png"

  lemma PictureTarget()
    ensures DestroyTarget(PictureUrl) == "task-images/pic"
  {
    assert PictureUrl == "u/task-images" + ['/'] + "pic.png";
    LastSegmentAfter("u/task-images", '/', "pic.png");
    assert "pic.png" == "pic" + ['.'] + "png";
    FirstSegmentBefore("pic", '.', "png");
  }

  lemma PictureIsCustom()
    ensures HoldsCustomImage(Some(PictureUrl))
  {
    assert DefaultProfileMarker[2] == 'f';
    MissingCharRulesOut(PictureUrl, DefaultProfileMarker, 2);
  }

  /** Ada, signed up, with `PictureUrl` as her profile picture. */
  method AdaWithPicture(images: ImageStore) returns (db: Database)
    modifies images
    ensures fresh(db) && db.Valid()
    ensures db.users == map[0 := AdaUser().(profile := Some(PictureUrl))]
    ensures images.destroyCalls == old(images.destroyCalls)
  {
    var signup;
    db, signup := AdaSignedUp();
    var upload := UpdateProfileImage(db, images, 0, Some(PictureUrl), true);
  }

  /** A picture change without a file: the shipped handler destroys the stored picture and
      then fails, leaving the profile pointing at the destroyed picture. */
  method ProfileImageWithoutFile() returns (res: Response, destroyed: seq<DestroyCall>, profile: Option<string>)
    ensures res == Response(500, ServerFault(ServerErrorMsg, MissingFileFault))
    ensures destroyed == [DestroyCall("task-images/pic", true)]
    ensures profile == Some(PictureUrl)
  {
    var images := new ImageStore();
    var db := AdaWithPicture(images);
    PictureTarget();
    PictureIsCustom();
    res := UpdateProfileImage(db, images, 0, None, true);
    destroyed := images.destroyCalls;
    profile := db.users[0].profile;
  }

  /** The same request against the checked handler destroys nothing. */
  method ProfileImageWithoutFileChecked() returns (res: Response, destroyed: seq<DestroyCall>, profile: Option<string>)
    ensures res == Response(500, ServerFault(ServerErrorMsg, MissingFileFault))
    ensures destroyed == []
    ensures profile == Some(PictureUrl)
  {
    var images := new ImageStore();
    var db := AdaWithPicture(images);
    res := UpdateProfileImageChecked(db, images, 0, None, true);
    destroyed := images.destroyCalls;
    profile := db.users[0].profile;
  }
}

=== FILE: store.dfy ===
/** The three collections the handlers read and write (users, password-reset tokens, tasks),
    held in memory by one `Database` object, together with the mail the handlers send.
    models/User.js is not part of this model: a user is the record the handlers read and
    assign, and password hashing is idealised as an injective function, so a stored password
    matches a candidate exactly when it was set from that candidate. */
module Store {
  import opened Wrappers
  import opened Mongo
  import opened Jwt
  import opened ResetTokens
  import opened TaskModel

  datatype User = User(
    firstName: string,
    lastName: string,
    username: string,
    email: string,
    password: Option<string>,   // unset until the account's password is first set
    profile: Option<string>)    // image URL; unset until the first upload

  /** An email handed to the mail transport, with the token its link carries. */
  datatype Mail = Mail(to: string, subject: string, token: Token)

  /** `user.matchPassword(candidate)`: an unset password matches nothing. */
  predicate PasswordMatches(stored: Option<string>, candidate: string)
  {
    stored == Some(candidate)
  }

  predicate EmailTaken(users: map<ObjectId, User>, email: string)
  {
    exists id :: id in users && users[id].email == email
  }

  predicate UsernameTaken(users: map<ObjectId, User>, username: string)
  {
    exists id :: id in users && users[id].username == username
  }

  /** The handlers never let two users share an email. */
  predicate EmailsUnique(users: map<ObjectId, User>)
  {
    forall a, b :: a in users && b in users && a != b ==> users[a].email != users[b].email
  }

  /** A reset record as the handlers create it: for an existing user, carrying a token
      signed for that user whose `exp` does not outlast the record. */
  predicate IssuedFor(r: ResetToken, users: map<ObjectId, User>)
  {
    && r.userId.Some? && r.userId.value in users
    && r.token.Some? && r.token.value.Signed?
    && r.token.value.claims.id == r.userId.value
    && r.token.value.claims.exp * 1000 <= r.expiresAt
  }

  /** Every record in the collection was made by signup or forgot-password. */
  predicate AllIssued(rs: seq<ResetToken>, users: map<ObjectId, User>)
  {
    forall r :: r in rs ==> IssuedFor(r, users)
  }

  /** The token and record signup and forgot-password create for `uid` at clock `now`: the
      15-minute token and a record that expires 15 minutes after `now`. */
  function IssueRecord(id: ObjectId, uid: ObjectId, now: int): (r: ResetToken)
    ensures r.id == id && r.userId == Some(uid) && r.expiresAt == now + ResetWindowMs
    ensures r.token == Some(Sign(uid, ActivationTtl, now))
    ensures Verify(r.token.value, now) == Some(uid)
    ensures r.token.value.claims.exp * 1000 <= r.expiresAt
  {
    assert NumericDate(now) * 1000 <= now;
    NewRecord(id, Some(uid), Some(Sign(uid, ActivationTtl, now)), Some(now + ResetWindowMs), now)
  }

  /** Whenever the token of a record made by the handlers verifies, the record itself is
      still live for both handlers: set-password's "expired" branch cannot be reached through
      such a record, and reset-password's `$gt` filter never rejects it. */
  lemma VerifiedRecordIsLive(r: ResetToken, users: map<ObjectId, User>, now: int)
    requires IssuedFor(r, users)
    requires Verify(r.token.value, now).Some?
    ensures !ExpiredAt(r, now) && LiveAt(r, now)
  {
    LiveBeforeDeadline(r.token.value.claims, now, r.expiresAt);
  }

  /** Removing records, and changing users without adding or removing any, keeps every
      remaining record issued. */
  lemma IssuedAfterRemoval(rs: seq<ResetToken>, rs2: seq<ResetToken>, users: map<ObjectId, User>, users2: map<ObjectId, User>)
    requires forall x :: x in rs2 ==> x in rs
    requires users.Keys == users2.Keys
    ensures AllIssued(rs, users) ==> AllIssued(rs2, users2)
  {
  }

  /** Setting a user's password touches no email and no id. */
  lemma PasswordChangeKeeps(users: map<ObjectId, User>, uid: ObjectId, password: Option<string>)
    requires uid in users
    ensures users[uid := users[uid].(password := password)].Keys == users.Keys
    ensures EmailsUnique(users) ==> EmailsUnique(users[uid := users[uid].(password := password)])
  {
  }

  class Database {
    var users: map<ObjectId, User>
    var resetTokens: seq<ResetToken>
    var tasks: map<ObjectId, Task>
    var outbox: seq<Mail>
    /** The next fresh ObjectId. */
    var nextId: nat

    ghost predicate Valid()
      reads this
    {
      && (forall id :: id in users ==> id < nextId)
      && (forall id :: id in tasks ==> id < nextId)
      && (forall r :: r in resetTokens ==> r.id < nextId)
      && DistinctIds(resetTokens)
      && EmailsUnique(users)
    }

    constructor ()
      ensures Valid()
      ensures users == map[] && resetTokens == [] && tasks == map[] && outbox == [] && nextId == 0
    {
      users, resetTokens, tasks, outbox, nextId := map[], [], map[], [], 0;
    }
  }
}

=== FILE: strings.dfy ===
/** The JavaScript string operations the core relies on: `s.split(sep).pop()`,
    `s.split(sep)[0]` and `s.includes(part)`. */
module Strings {

  /** `s.split(sep).pop()`: the text after the last `sep`, or all of `s` when there is none. */
  function LastSegment(s: string, sep: char): (r: string)
    ensures sep !in r
    ensures |r| <= |s| && r == s[|s| - |r|..]
    ensures |r| == |s| || s[|s| - |r| - 1] == sep
  {
    if |s| == 0 then ""
    else if s[|s| - 1] == sep then ""
    else
      var init := LastSegment(s[..|s| - 1], sep);
      assert s[..|s| - 1][|s| - 1 - |init|..] + [s[|s| - 1]] == s[|s| - 1 - |init|..];
      init + [s[|s| - 1]]
  }

  /** `s.split(sep)[0]`: the text before the first `sep`, or all of `s` when there is none. */
  function FirstSegment(s: string, sep: char): (r: string)
    ensures sep !in r
    ensures |r| <= |s| && r == s[..|r|]
    ensures |r| == |s| || s[|r|] == sep
  {
    if |s| == 0 then ""
    else if s[0] == sep then ""
    else [s[0]] + FirstSegment(s[1..], sep)
  }

  /** `part` occurs in `s` starting at index `i`. */
  predicate OccursAt(s: string, part: string, i: int)
  {
    0 <= i <= |s| - |part| && s[i..i + |part|] == part
  }

  /** `s.includes(part)`. */
  predicate Contains(s: string, part: string)
  {
    exists i | 0 <= i <= |s| - |part| :: OccursAt(s, part, i)
  }

  /** Whatever precedes the last separator, the last segment is what follows it. */
  lemma {:induction false} LastSegmentAfter(prefix: string, sep: char, tail: string)
    requires sep !in tail
    ensures LastSegment(prefix + [sep] + tail, sep) == tail
  {
    var s := prefix + [sep] + tail;
    if tail == [] {
      assert s[|s| - 1] == sep;
    } else {
      var init := tail[..|tail| - 1];
      assert s[..|s| - 1] == prefix + [sep] + init;
      assert s[|s| - 1] == tail[|tail| - 1];
      assert sep !in init by {
        forall i | 0 <= i < |init| ensures init[i] != sep { assert init[i] == tail[i]; }
      }
      LastSegmentAfter(prefix, sep, init);
      assert init + [tail[|tail| - 1]] == tail;
    }
  }

  /** Whatever follows the first separator, the first segment is what precedes it. */
  lemma {:induction false} FirstSegmentBefore(head: string, sep: char, rest: string)
    requires sep !in head
    ensures FirstSegment(head + [sep] + rest, sep) == head
  {
    var s := head + [sep] + rest;
    if head == [] {
      assert s[0] == sep;
    } else {
      assert s[0] == head[0];
      assert s[1..] == head[1..] + [sep] + rest;
      FirstSegmentBefore(head[1..], sep, rest);
      assert [head[0]] + head[1..] == head;
    }
  }

  /** A text lacking one of the characters of `part` does not include `part`. */
  lemma MissingCharRulesOut(s: string, part: string, k: nat)
    requires k < |part| && part[k] !in s
    ensures !Contains(s, part)
  {
    forall i | 0 <= i <= |s| - |part| ensures !OccursAt(s, part, i) {
      assert s[i..i + |part|][k] == s[i + k];
      assert s[i + k] in s;
    }
  }
}

=== FILE: task_model.dfy ===
/** models/Task.js: the stored task record, the schema's validation and defaults, and the
    `$set` update that `findOneAndUpdate` applies without running those validators. */
module TaskModel {
  import opened Wrappers
  import opened Mongo

  /** The image a task holds when none was uploaded: the schema's default, and the literal
      the create handler passes when there is no file. */
  const DefaultTaskImage: string := "default-task.jpg"

  /** The `enum` of the `status` path. */
  const StatusLabels: set<string> := {"pending", "inprogress", "done"}

  /** A stored task document; `createdAt`/`updatedAt` come from `{ timestamps: true }`.
      `status` is a string because an update can store any string there. */
  datatype Task = Task(
    user: ObjectId,
    title: string,
    description: string,
    date: int,
    status: string,
    image: string,
    createdAt: int,
    updatedAt: int)

  /** The fields handed to `new Task({ ... })`, each possibly undefined. */
  datatype TaskDraft = TaskDraft(
    user: Option<ObjectId>,
    title: Option<string>,
    description: Option<string>,
    date: Option<int>,
    status: Option<string>,
    image: Option<string>)

  /** A `findOneAndUpdate` body: the schema paths it sets; other keys are dropped. */
  datatype TaskPatch = TaskPatch(
    user: Option<ObjectId>,
    title: Option<string>,
    description: Option<string>,
    date: Option<int>,
    status: Option<string>,
    image: Option<string>)

  /** A present, non-empty string: JavaScript truthiness of an optional request field, and
      Mongoose's `required` check on a String path. */
  predicate Filled(s: Option<string>)
  {
    s.Some? && s.value != ""
  }

  /** The schema's validators over a stored record (`user` and `date` are present by type). */
  predicate ValidTask(t: Task)
  {
    t.title != "" && t.description != "" && t.status in StatusLabels
  }

  /** The draft passes every validator of the schema. */
  predicate DraftAcceptable(d: TaskDraft)
  {
    d.user.Some? && Filled(d.title) && Filled(d.description) && d.date.Some?
    && d.status.Some? && d.status.value in StatusLabels
  }

  /** `new Task(draft)` followed by `save()` at clock `now`: the defaulted, time-stamped record,
      or nothing when validation fails. */
  function Validate(d: TaskDraft, now: int): (r: Option<Task>)
    ensures r.Some? <==> DraftAcceptable(d)
    ensures r.Some? ==> ValidTask(r.value)
  {
    if DraftAcceptable(d) then
      Some(Task(d.user.value, d.title.value, d.description.value, d.date.value, d.status.value,
                if d.image.Some? then d.image.value else DefaultTaskImage, now, now))
    else None
  }

  /** `findOneAndUpdate(filter, patch)`: every supplied path is overwritten, `updatedAt` is
      stamped, nothing is validated. */
  function ApplyPatch(t: Task, p: TaskPatch, now: int): Task
  {
    Task(
      if p.user.Some? then p.user.value else t.user,
      if p.title.Some? then p.title.value else t.title,
      if p.description.Some? then p.description.value else t.description,
      if p.date.Some? then p.date.value else t.date,
      if p.status.Some? then p.status.value else t.status,
      if p.image.Some? then p.image.value else t.image,
      t.createdAt,
      now)
  }

  /** The draft a stored record would have come from. */
  function DraftOf(t: Task): TaskDraft
  {
    TaskDraft(Some(t.user), Some(t.title), Some(t.description), Some(t.date), Some(t.status), Some(t.image))
  }

  /** The tasks whose `user` is `owner`: `Task.find({ user: owner })`. */
  function OwnedBy(tasks: map<ObjectId, Task>, owner: ObjectId): (r: map<ObjectId, Task>)
    ensures forall id :: id in r <==> id in tasks && tasks[id].user == owner
    ensures forall id :: id in r ==> r[id] == tasks[id]
  {
    map id | id in tasks && tasks[id].user == owner :: tasks[id]
  }

  /** Exactly the three labels are accepted as a status. */
  lemma StatusEnum(d: TaskDraft, now: int)
    requires d.user.Some? && Filled(d.title) && Filled(d.description) && d.date.Some? && d.status.Some?
    ensures Validate(d, now).Some? <==> d.status.value == "pending" || d.status.value == "inprogress" || d.status.value == "done"
  {
  }

  /** Leaving `image` out and passing the sentinel explicitly store the same record: the
      create handler's literal is the schema's default. */
  lemma SentinelIsSchemaDefault(d: TaskDraft, now: int)
    ensures Validate(d.(image := None), now) == Validate(d.(image := Some(DefaultTaskImage)), now)
  {
  }

  /** A valid record saved at its creation instant is reproduced by validating its own draft. */
  lemma ValidateRoundTrip(t: Task)
    requires ValidTask(t)
    requires t.createdAt == t.updatedAt
    ensures Validate(DraftOf(t), t.createdAt) == Some(t)
  {
  }

  /** Every required path is enforced: dropping any one of them makes the save fail. */
  lemma RequiredPaths(d: TaskDraft, now: int)
    ensures Validate(d.(user := None), now).None?
    ensures Validate(d.(title := None), now).None?
    ensures Validate(d.(description := None), now).None?
    ensures Validate(d.(date := None), now).None?
    ensures Validate(d.(status := None), now).None?
    ensures Validate(d.(title := Some("")), now).None?
  {
  }

  /** An update is not validated: it can store a status outside the enum, or hand the task
      to another user. */
  lemma PatchBypassesSchema(t: Task, bogus: string, newOwner: ObjectId, now: int)
    requires bogus !in StatusLabels
    ensures !ValidTask(ApplyPatch(t, TaskPatch(None, None, None, None, Some(bogus), None), now))
    ensures ApplyPatch(t, TaskPatch(Some(newOwner), None, None, None, None, None), now).user == newOwner
  {
  }

  /** An update with no recognised path changes only `updatedAt`, and never `createdAt`. */
  lemma EmptyPatchTouchesOnlyUpdatedAt(t: Task, now: int)
    ensures ApplyPatch(t, TaskPatch(None, None, None, None, None, None), now) == t.(updatedAt := now)
  {
  }
}

=== FILE: task_routes.dfy ===
/** routes/taskRoutes.js: the task handlers, each behind the authentication middleware.
    `owner` is the id the middleware put in `req.user`; a path `:id` arrives as an `IdParam`,
    which is `NotAnObjectId` when Mongoose cannot cast it. */
module TaskRoutes {
  import opened Wrappers
  import opened Mongo
  import opened TaskModel
  import opened Store
  import opened Http
  import opened AuthMiddleware

  const CreatedMsg: string := "Task created successfully"
  const ServerIssuesMsg: string := "server issues"
  const GetNotFoundMsg: string := "task not found"
  const NotFoundMsg: string := "Task Not found"
  const UpdatedMsg: string := "task updated"
  const DeletedMsg: string := "task deleted successfully"
  const ImageUpdatedMsg: string := "image is updated"

  /** The multipart body of a create request. */
  datatype TaskFields = TaskFields(title: Option<string>, description: Option<string>, date: Option<int>, status: Option<string>)

  /** The draft the create handler builds: the caller as owner and the uploaded path, or the
      sentinel when no file was sent. */
  function CreateDraft(owner: ObjectId, f: TaskFields, file: Option<string>): TaskDraft
  {
    TaskDraft(Some(owner), f.title, f.description, f.date, f.status, Some(if file.Some? then file.value else DefaultTaskImage))
  }

  /** The scoped lookup `{ _id: id, user: owner }`. */
  predicate OwnsTask(tasks: map<ObjectId, Task>, id: ObjectId, owner: ObjectId)
  {
    id in tasks && tasks[id].user == owner
  }

  /** The create request passes the schema's validators. */
  predicate FieldsAcceptable(f: TaskFields)
  {
    Filled(f.title) && Filled(f.description) && f.date.Some? && f.status.Some? && f.status.value in StatusLabels
  }

  /** POST /tasks: a request passing the schema is stored under a fresh id, owned by the
      caller, with the request's fields, the upload or the default image, and both timestamps
      at `now`; any other request answers 500 and changes nothing. */
  method CreateTask(db: Database, owner: ObjectId, fields: TaskFields, file: Option<string>, now: int) returns (res: Response)
    requires db.Valid()
    modifies db
    ensures db.Valid()
    ensures db.users == old(db.users) && db.resetTokens == old(db.resetTokens) && db.outbox == old(db.outbox)
    ensures !FieldsAcceptable(fields) ==> res == Response(500, Message(ServerIssuesMsg)) && unchanged(db)
    ensures FieldsAcceptable(fields) ==>
      var id := old(db.nextId);
      var t := Task(owner, fields.title.value, fields.description.value, fields.date.value, fields.status.value,
                    if file.Some? then file.value else DefaultTaskImage, now, now);
      && id !in old(db.tasks) && ValidTask(t)
      && db.tasks == old(db.tasks)[id := t] && db.nextId == id + 1
      && res == Response(201, TaskJson(CreatedMsg, id, t))
  {
    var stored := Validate(CreateDraft(owner, fields, file), now);
    if stored.None? {
      return Response(500, Message(ServerIssuesMsg));
    }
    var id := db.nextId;
    db.tasks := db.tasks[id := stored.value];
    db.nextId := id + 1;
    res := Response(201, TaskJson(CreatedMsg, id, stored.value));
  }

  /** GET /tasks, as written: `Task.find(undefined)` returns every user's tasks. */
  method ListTasks(db: Database, owner: ObjectId) returns (res: Response)
    ensures res.status == 200 && res.body.TaskList?
    ensures forall id :: id in res.body.tasks <==> id in db.tasks
    ensures forall id :: id in res.body.tasks ==> res.body.tasks[id] == db.tasks[id]
  {
    res := Response(200, TaskList(db.tasks));
  }

  /** GET /tasks as evidently intended: `Task.find({ user: owner })`. */
  method ListOwnTasks(db: Database, owner: ObjectId) returns (res: Response)
    ensures res.status == 200 && res.body.TaskList?
    ensures forall id :: id in res.body.tasks <==> OwnsTask(db.tasks, id, owner)
    ensures forall id :: id in res.body.tasks ==> id in db.tasks && res.body.tasks[id] == db.tasks[id]
  {
    res := Response(200, TaskList(OwnedBy(db.tasks, owner)));
  }

  /** GET /tasks/:id: a task is shown only to its owner; a missing task and someone else's
      task get the same answer. A cast failure lands in the `catch`, which answers without
      setting a status. */
  method GetTask(db: Database, owner: ObjectId, id: IdParam) returns (res: Response)
    ensures id.NotAnObjectId? ==> res == Response(200, Text(ServerIssuesMsg))
    ensures id.Id? && !OwnsTask(db.tasks, id.value, owner) ==> res == Response(400, Text(GetNotFoundMsg))
    ensures id.Id? && OwnsTask(db.tasks, id.value, owner) ==> res == Response(200, OneTask(id.value, db.tasks[id.value]))
    ensures res.body.OneTask? ==> res.body.id in db.tasks && res.body.task.user == owner
  {
    if id.NotAnObjectId? {
      return Response(200, Text(ServerIssuesMsg));
    }
    if !OwnsTask(db.tasks, id.value, owner) {
      return Response(400, Text(GetNotFoundMsg));
    }
    res := Response(200, OneTask(id.value, db.tasks[id.value]));
  }

  /** PUT /tasks/:id, as written: `Tasl` is not defined, so evaluating the call throws a
      `ReferenceError` before any lookup, whatever the request. */
  method UpdateTaskAsWritten(db: Database, owner: ObjectId, id: IdParam, patch: TaskPatch) returns (res: Response)
    ensures res == Response(500, Message(ServerIssuesMsg))
  {
    res := Response(500, Message(ServerIssuesMsg));
  }

  /** DELETE /tasks/:id, as written: the same undefined `Tasl`. */
  method DeleteTaskAsWritten(db: Database, owner: ObjectId, id: IdParam) returns (res: Response)
    ensures res == Response(500, Message(ServerIssuesMsg))
  {
    res := Response(500, Message(ServerIssuesMsg));
  }

  /** PUT /tasks/:id with the model the handler means: the scoped `findOneAndUpdate`
      overwrites whatever paths the body carries, owner included, without validation. */
  method UpdateTask(db: Database, owner: ObjectId, id: IdParam, patch: TaskPatch, now: int) returns (res: Response)
    requires db.Valid()
    modifies db
    ensures db.Valid()
    ensures db.users == old(db.users) && db.resetTokens == old(db.resetTokens)
    ensures db.outbox == old(db.outbox) && db.nextId == old(db.nextId)
    ensures id.NotAnObjectId? ==> res == Response(500, Message(ServerIssuesMsg)) && unchanged(db)
    ensures id.Id? && !OwnsTask(old(db.tasks), id.value, owner) ==> res == Response(400, Text(NotFoundMsg)) && unchanged(db)
    ensures id.Id? && OwnsTask(old(db.tasks), id.value, owner) ==>
      && res == Response(200, Text(UpdatedMsg))
      && db.tasks == old(db.tasks)[id.value := ApplyPatch(old(db.tasks)[id.value], patch, now)]
  {
    if id.NotAnObjectId? {
      return Response(500, Message(ServerIssuesMsg));
    }
    if !OwnsTask(db.tasks, id.value, owner) {
      return Response(400, Text(NotFoundMsg));
    }
    db.tasks := db.tasks[id.value := ApplyPatch(db.tasks[id.value], patch, now)];
    res := Response(200, Text(UpdatedMsg));
  }

  /** DELETE /tasks/:id with the model the handler means: the scoped `findOneAndDelete`.
      The task's image is not released. */
  method DeleteTask(db: Database, owner: ObjectId, id: IdParam) returns (res: Response)
    requires db.Valid()
    modifies db
    ensures db.Valid()
    ensures db.users == old(db.users) && db.resetTokens == old(db.resetTokens)
    ensures db.outbox == old(db.outbox) && db.nextId == old(db.nextId)
    ensures id.NotAnObjectId? ==> res == Response(500, Message(ServerIssuesMsg)) && unchanged(db)
    ensures id.Id? && !OwnsTask(old(db.tasks), id.value, owner) ==> res == Response(400, Text(NotFoundMsg)) && unchanged(db)
    ensures id.Id? && OwnsTask(old(db.tasks), id.value, owner) ==>
      res == Response(200, Text(DeletedMsg)) && db.tasks == old(db.tasks) - {id.value}
  {
    if id.NotAnObjectId? {
      return Response(500, Message(ServerIssuesMsg));
    }
    if !OwnsTask(db.tasks, id.value, owner) {
      return Response(400, Text(NotFoundMsg));
    }
    db.tasks := db.tasks - {id.value};
    res := Response(200, Text(DeletedMsg));
  }

  /** PUT /tasks/:id/image: the scoped lookup, then `task.image = req.file.path` and
      `save()`, which throws without a file and fails when the stored record no longer passes
      the schema. The previous image is not released. */
  method UpdateTaskImage(db: Database, owner: ObjectId, id: IdParam, file: Option<string>, now: int) returns (res: Response)
    requires db.Valid()
    modifies db
    ensures db.Valid()
    ensures db.users == old(db.users) && db.resetTokens == old(db.resetTokens)
    ensures db.outbox == old(db.outbox) && db.nextId == old(db.nextId)
    ensures id.NotAnObjectId? ==> res == Response(500, Message(ServerIssuesMsg)) && unchanged(db)
    ensures id.Id? && !OwnsTask(old(db.tasks), id.value, owner) ==> res == Response(400, Text(NotFoundMsg)) && unchanged(db)
    ensures id.Id? && OwnsTask(old(db.tasks), id.value, owner) ==>
      var t := old(db.tasks)[id.value];
      && (file.None? || !ValidTask(t) ==> res == Response(500, Message(ServerIssuesMsg)) && unchanged(db))
      && (file.Some? && ValidTask(t) ==>
            && res == Response(200, Text(ImageUpdatedMsg))
            && db.tasks == old(db.tasks)[id.value := t.(image := file.value, updatedAt := now)])
  {
    if id.NotAnObjectId? {
      return Response(500, Message(ServerIssuesMsg));
    }
    if !OwnsTask(db.tasks, id.value, owner) {
      return Response(400, Text(NotFoundMsg));
    }
    if file.None? {
      return Response(500, Message(ServerIssuesMsg));
    }
    var task := db.tasks[id.value];
    task := task.(image := file.value);
    if !ValidTask(task) {
      return Response(500, Message(ServerIssuesMsg));
    }
    db.tasks := db.tasks[id.value := task.(updatedAt := now)];
    res := Response(200, Text(ImageUpdatedMsg));
  }

  /** A request to one of the task routes, after body and upload parsing. */
  datatype TaskRequest =
    | Create(fields: TaskFields, file: Option<string>)
    | List
    | Get(id: IdParam)
    | Update(id: IdParam, patch: TaskPatch)
    | Delete(id: IdParam)
    | ChangeImage(id: IdParam, file: Option<string>)

  /** The router with the corrected list, update and delete (`ListOwnTasks`, `UpdateTask`,
      `DeleteTask`): the middleware runs first; only when it calls `next` does the handler
      run, with the owner taken from the verified cookie. */
  method Serve(db: Database, jar: CookieJar, req: TaskRequest, now: int) returns (res: Response)
    requires db.Valid()
    modifies db
    ensures db.Valid()
    ensures db.users == old(db.users) && db.resetTokens == old(db.resetTokens) && db.outbox == old(db.outbox)
    ensures !Decide(jar, now).Authenticated? ==> unchanged(db) && (res.status == 401 || res.status == 500)
    ensures Decide(jar, now).Authenticated? ==>
      var caller := Decide(jar, now).userId;
      && (forall id :: id in old(db.tasks) && old(db.tasks)[id].user != caller ==>
            id in db.tasks && db.tasks[id] == old(db.tasks)[id])
      && (forall id :: id in db.tasks && id !in old(db.tasks) ==> db.tasks[id].user == caller)
      && (res.body.TaskList? ==> forall id :: id in res.body.tasks ==> res.body.tasks[id].user == caller)
      && (res.body.OneTask? ==> res.body.task.user == caller)
  {
    var ex := new Exchange(jar);
    Authenticate(ex, now);
    if ex.response.Some? {
      return ex.response.value;
    }
    var caller := ex.user.value;
    match req
    case Create(fields, file) => res := CreateTask(db, caller, fields, file, now);
    case List => res := ListOwnTasks(db, caller);
    case Get(id) => res := GetTask(db, caller, id);
    case Update(id, patch) => res := UpdateTask(db, caller, id, patch, now);
    case Delete(id) => res := DeleteTask(db, caller, id);
    case ChangeImage(id, file) => res := UpdateTaskImage(db, caller, id, file, now);
  }

  /** The router as shipped: the same middleware in front of the shipped list, which shows
      every user's tasks, and the shipped update and delete, which always answer 500. Only
      create and the image change can alter the store, and only for the caller. */
  method ServeAsWritten(db: Database, jar: CookieJar, req: TaskRequest, now: int) returns (res: Response)
    requires db.Valid()
    modifies db
    ensures db.Valid()
    ensures db.users == old(db.users) && db.resetTokens == old(db.resetTokens) && db.outbox == old(db.outbox)
    ensures !Decide(jar, now).Authenticated? ==> unchanged(db) && (res.status == 401 || res.status == 500)
    ensures Decide(jar, now).Authenticated? ==>
      var caller := Decide(jar, now).userId;
      && (forall id :: id in old(db.tasks) ==> id in db.tasks)
      && (forall id :: id in old(db.tasks) && old(db.tasks)[id].user != caller ==> db.tasks[id] == old(db.tasks)[id])
      && (forall id :: id in db.tasks && id !in old(db.tasks) ==> db.tasks[id].user == caller)
      && (req.List? ==> unchanged(db) && res == Response(200, TaskList(db.tasks)))
      && (req.Update? || req.Delete? ==> unchanged(db) && res == Response(500, Message(ServerIssuesMsg)))
  {
    var ex := new Exchange(jar);
    Authenticate(ex, now);
    if ex.response.Some? {
      return ex.response.value;
    }
    var caller := ex.user.value;
    match req
    case Create(fields, file) => res := CreateTask(db, caller, fields, file, now);
    case List =>
      res := ListTasks(db, caller);
      assert res.body.tasks == db.tasks;
    case Get(id) => res := GetTask(db, caller, id);
    case Update(id, patch) => res := UpdateTaskAsWritten(db, caller, id, patch);
    case Delete(id) => res := DeleteTaskAsWritten(db, caller, id);
    case ChangeImage(id, file) => res := UpdateTaskImage(db, caller, id, file, now);
  }
}

=== FILE: wrappers.dfy ===
/** The optional value used wherever the source may find nothing (a query with no match,
    a request field that was not sent, a token that does not verify). */
module Wrappers {

  datatype Option<+T> = None | Some(value: T)
}
